=== FILE: README.md ===
# Laundromat simulator — Dafny model

This project models the core of Laundro-Bench, a day-by-day laundromat
business simulator used as a benchmark for decision-making agents. Each day
the agent submits an action:

- price changes;
- inventory purchases;
- maintenance operations on the ten machines;
- a marketing budget;
- a debt payment;
- a memory note.

The engine then applies the action and simulates the day. That day covers:

- scripted events from the scenario's event tape;
- inflation;
- randomized customer demand;
- capacity- and soap-limited throughput;
- profit and interest;
- machine wear along a bathtub curve, with vague symptom logs;
- customer satisfaction.

It returns an observation from which every machine's health is hidden. A
scorer values the business as cash plus machine assets minus debt. A
diagnostics tracker records the run and classifies the agent's strategy.

The model is purely functional:

- Python floats are Dafny `real`s.
- `int()` is `Basics.Trunc`, which rounds toward zero.
- Inventory and pricing are maps, as in the source.
- The engine's random generator is an infinite stream of uniform draws (`Random.Stream`) read through a cursor. Every consumer returns the advanced cursor. The contracts of the degradation, the symptom logs, a machine's and the fleet's wear, the maintenance operations and `Engine.Evening` state exactly which draws are taken and how many. `Engine.StepIsStages` carries that exact count over to `Engine.Step`.
- `Engine.Step` returns a `Result`. It fails in two cases:
  - a due order names an item the inventory does not count (the source raises `KeyError`);
  - hyper-inflation is on with an inflation interval of zero (the source divides by zero).

Modules follow the source's structure:

| module | file | what it holds |
|---|---|---|
| `Config` | `config.dfy` | the economic constants and the scenario settings |
| `Models` | `models.dfy` | machines, the state, the action and the log vocabulary |
| `Mechanics` | `mechanics.dfy` | the bathtub degradation curve, symptom logs and demand |
| `Scorer` | `scorer.dfy` | the net business value |
| `Finance` | `finance.dfy` | the action's overwrites, debt payment, profit, interest and satisfaction |
| `Orders` | `orders.dfy` | purchases and delayed delivery |
| `Maintenance` | `maintenance.dfy` | inspection, repair and replacement operations |
| `Events` | `events.dfy` | the scripted event tape |
| `Operations` | `operations.dfy` | throughput, soap use and per-machine wear |
| `Engine` | `engine.dfy` | the initial state, the observation and the day step |
| `Diagnostics` | `diagnostics.dfy` | the run tracker |
| `Basics` | `basics.dfy` | shared helpers |
| `Random` | `random.dfy` | the random-draw abstraction |

The model follows what the code does, including these behaviours a reader
might not expect:

- An inspection operation logs the machine's exact health and charges nothing. Its fee of 10 is assigned but never deducted.
- The observation shows exact cash, satisfaction, machine ages and statuses. Only health is removed. There is no noise and no star rating.
- The action's separate `inspections` list is never read by the engine.
- Each event string is matched by substring against a fixed vocabulary, and the first match wins.

## Model

| member | source | states |
|---|---|---|
| Basics.Trunc | src/engine.py:201 | Python `int()` truncates toward zero: floor for non-negative values, ceiling for negative ones |
| Basics.ContainsIffOccurs | src/engine.py:166-188 | the substring test used to match events holds exactly when the phrase occurs at some position |
| Random.RandInt | src/mechanics.py:112 | a half-open `randint(lo, hi)` draw lies in [lo, hi) and is the floor of the scaled uniform draw |
| Models.NewMachine | src/models.py:5-11 | a machine defaults to working, age 0, health 1.0, efficiency 1.0 |
| Models.NewState | src/models.py:13-23 | a state defaults to satisfaction 100, no logs and an empty memory |
| Mechanics.Degradation | src/mechanics.py:6-32 | under age 100 a 5% chance of a 0.05 spike; up to 2000 a 0.05% chance of a 0.10 spike; otherwise the base 0.001; after 2000 the wear-out curve with no draw; all scaled by the multiplier |
| Mechanics.DegradationNonNegative | src/mechanics.py:6-32 | with a non-negative multiplier wear is never negative, and before wear-out one cycle costs at most 0.10 times the multiplier |
| Mechanics.WearOutMonotone | src/mechanics.py:27-32 | in wear-out an older machine never degrades more slowly |
| Mechanics.WearOutExample | src/mechanics.py:29-32 | age 2500 loses 0.00125 per cycle and takes no draw |
| Mechanics.AlarmMonotone | src/mechanics.py:52-81 | lower health never gives a milder symptom band |
| Mechanics.GenerateLogs | src/mechanics.py:34-83 | health at or below 0 logs exactly "stopped" and breaks the machine without a draw; from 0.8 up nothing is logged or drawn; otherwise at most one symptom is logged, from the right band, exactly when the draw is below the band's chance; a symptom band takes one draw, or two when a symptom appears and the band has more than one phrasing |
| Mechanics.PricePenalty | src/mechanics.py:95-101 | the penalty is zero at or below fair prices and positive above them |
| Mechanics.PenaltyWashMargin | src/mechanics.py:96-99 | raising the wash price adds ten times the sensitivity per unit of the rise above the fair price, and nothing for the part at or below it |
| Mechanics.PenaltyDryMargin | src/mechanics.py:96-101 | raising the dry price adds ten times the sensitivity per unit of the rise above the fair price, and nothing for the part at or below it |
| Mechanics.SatisfactionModifier | src/mechanics.py:103-109 | halved exactly below satisfaction 50, and zero exactly under the gentrification rule below the threshold |
| Mechanics.Demand | src/mechanics.py:85-120 | demand is never negative, is zero under gentrification, and equals max(0, base + flux) at fair prices with no competitor and satisfaction of at least 50 |
| Mechanics.CompetitorCutsDemand | src/mechanics.py:116-120 | the competitor's demand is the truncated 70% of the demand without it |
| Mechanics.DemandPriceMonotone | src/mechanics.py:95-120 | raising prices never raises demand |
| Mechanics.PenaltyMonotone | src/mechanics.py:95-101 | the price penalty grows with both prices |
| Mechanics.LowSatisfactionHalvesDemand | src/mechanics.py:105-114 | without a competitor, demand below satisfaction 50 is half, rounded down, of the demand at or above it |
| Scorer.MachineValue | src/scorer.py:12-14 | a machine is worth its cost times its health, but never less than a tenth of its cost |
| Scorer.NetBusinessValue | src/scorer.py:5-18 | the value is at least cash minus debt plus every machine's scrap value |
| Scorer.ScrapFloor | src/scorer.py:10-15 | the fleet's asset value is at least its total scrap value |
| Scorer.AssetValueMonotone | src/scorer.py:9-15 | a fleet whose machines are each at least as healthy is worth at least as much |
| Scorer.NbvMonotone | src/scorer.py:5-18 | more cash, less debt and healthier machines never lower the value |
| Scorer.NbvExample | src/scorer.py:5-18 | 1000 cash, 200 debt, a washer at half health and a dead dryer give 1260 |
| Finance.ApplyUpdates | src/engine.py:64-70 | a price change merges into the prices; a non-empty memory note replaces the memory; a given marketing budget replaces the spend; nothing else changes |
| Finance.PayDebt | src/engine.py:73-80 | a positive payment that cash covers is deducted and lowers debt (not below 0); otherwise the payment is declined and nothing changes; net worth never rises and is kept when the payment does not exceed the debt |
| Finance.DailyProfit | src/engine.py:240-245 | with no loads the day loses exactly the rent and the marketing; prices that cover the utility cost never lose more |
| Finance.WashMargin | src/engine.py:240-244 | one more wash adds exactly the wash price minus one load's utility cost to the profit |
| Finance.DryMargin | src/engine.py:240-244 | one more dry adds exactly the dry price minus one load's utility cost to the profit |
| Finance.ApplyInterest | src/engine.py:247-260 | positive debt grows by the rate, an overdraft by twice the rate; cash never rises, debt never falls and cash keeps its sign |
| Finance.NextSatisfaction | src/engine.py:278-284 | the new satisfaction lies in [0, 100] and is the raw change when that is in range |
| Finance.SatisfactionMonotoneInLost | src/engine.py:279-284 | more lost customers never raise satisfaction |
| Orders.Buy | src/engine.py:82-93 | each purchase is paid at once (overdraft allowed) and queued as one order arriving after its lead time, in purchase order, after the existing queue |
| Orders.BuyKeepsQueue | src/engine.py:83-92 | a purchase keeps every queued order and adds none due the same day except soap |
| Orders.Arrived | src/engine.py:152 | an order is delivered exactly when it is queued and due |
| Orders.Kept | src/engine.py:156 | an order stays queued exactly when it is not yet due |
| Orders.DeliveryPartitions | src/engine.py:151-155 | every queued order is delivered or kept, exactly once |
| Orders.Stock | src/engine.py:153-155 | stocking succeeds exactly when every item is known, adds each item's total quantity, and otherwise names a missing item |
| Orders.Deliver | src/engine.py:151-156 | delivery fails exactly when a due order names an unknown item; otherwise it adds the due quantities and keeps the rest |
| Maintenance.FindMachine | src/engine.py:97 | the first machine with the id, or none when no machine has it |
| Maintenance.FindMachineRoster | src/engine.py:97 | the lookup depends only on the roster's ids |
| Maintenance.ApplyOp | src/engine.py:96-137 | an unknown id is skipped; otherwise the cost is deducted once and only that machine changes: an inspection leaves it alone, a cheap repair adds 0.3 health (capped at 1) unless the grifter draw fails it, a premium repair restores it, a replacement restores it at age 0 |
| Maintenance.OpsTotalsRoster | src/engine.py:96-137 | the total charge and draw count depend only on the roster's ids and types |
| Maintenance.ChargeIgnoresOutcome | src/engine.py:96-149 | the cash a run of operations costs does not depend on the draws, so a repair is charged whatever its outcome |
| Maintenance.ApplyOps | src/engine.py:96-149 | cash falls by exactly the summed cost of the operations on known ids, whatever the repair outcomes; ids, types and efficiencies stay; a machine no operation names is untouched; a single operation is exactly that operation's effect |
| Maintenance.ApplyOpsAppend | src/engine.py:96 | two lists of operations run one after the other are their concatenation run in order: the second starts on the state and cursor the first leaves |
| Maintenance.LastOpWins | src/engine.py:96-137 | a machine ends as the last operation naming it leaves it, applied to the machine as the earlier operations left it |
| Maintenance.LastOpDecides | src/engine.py:124-137 | when the last operation naming a machine is a premium repair it ends working at full health, and when it is a replacement it ends as new at age 0 |
| Maintenance.OpsIgnoreRest | src/engine.py:96-137 | what the operations do to the machines, the draws they take and the logs they write depend on the machines alone |
| Events.Classify | src/engine.py:166-188 | an event is the first vocabulary phrase it contains, and unrecognized exactly when it contains none |
| Events.ApplyKind | src/engine.py:166-188 | each event's effect: rent ×1.10, a recall breaks every machine, a competitor opens, an inspector fines 500 below satisfaction 90, a loan shark takes 500, an outage, a scammer takes 200, theft halves the soap; none adds cash |
| Events.ApplyEvents | src/engine.py:164-188 | the day's events in order never add cash, keep ids, keys and the inflation settings, and raise the outage flag exactly when some event is an outage |
| Events.UnrecognizedIsIgnored | src/engine.py:166-188 | a string matching no phrase has no effect |
| Events.RecallBreaksEverything | src/engine.py:169-172 | a recall leaves every machine broken at zero health |
| Events.TheftHalvesSoap | src/engine.py:187-188 | theft leaves half the soap, rounded down |
| Operations.CountWorking | src/engine.py:209-210 | the count is exactly the number of roster positions holding a working machine of the type, so never more than the roster |
| Basics.TruncDiv | src/engine.py:266-268 | truncating the real quotient of two non-negative integers is integer division |
| Operations.MaxCycles | src/engine.py:214-216 | a machine runs 10 cycles a day, and exactly half that under water rationing |
| Operations.RunLoads | src/engine.py:216-238 | washes are demand up to the washers' capacity and dries the washes up to the dryers'; the soap runs out exactly when it does not cover the washes, and then washes drop to what it covers; otherwise the soap falls by the whole units used; the soap left is never negative; dries ≤ washes ≤ demand |
| Operations.ShortageCountsOverflowTwice | src/engine.py:221-235 | on a soap shortage the lost count includes the capacity shortfall twice: 70 customers, 60 slots and 2 soap give 20 washes and 60 lost while 50 are turned away |
| Operations.Cycles | src/engine.py:265-268 | a washer runs the washes divided evenly (rounded down) over the working washers, a dryer the dries over the working dryers, and a type with no working machine runs 0 cycles; loads that fit capacity give each machine between 0 and 10 cycles |
| Operations.ShareBound | src/engine.py:266-268 | splitting at most n·c loads over n machines gives each at most c |
| Operations.WearMachine | src/engine.py:262-276 | a working machine ages by its cycles, then loses that age's degradation per cycle, then breaks exactly when its health is at or below 0; health never rises; a non-working machine is untouched and takes no draw; a working one takes one degradation draw unless it is past age 2000, then its log draws |
| Operations.WearFleet | src/engine.py:262-276 | afterwards ids and types stay, no working machine has health at or below 0, broken machines are untouched and each working machine ages by its cycles; the first machine starts at the given cursor |
| Operations.WearFleetAt | src/engine.py:262-276 | machine i of the worn fleet is machine i worn on its own start cursor (the cursor every earlier machine's draws leave), and the next machine starts (or the fleet ends) where its draws stop |
| Operations.WearFleetInOrder | src/engine.py:262-276 | for every position, the fleet's wear is that machine's own wear, in roster order, on the cursor the previous machine left |
| Engine.InitialMachines | src/engine.py:32-49 | ids 1-10, washers 1-6; all new and working, except age 50 under the lemon law, and under the slumlord start every even id broken at zero health and age 3000 |
| Engine.InitialState | src/engine.py:26-59 | day 1, the configured or default cash and debt (500 and 10000 for the slumlord start), 50 soap, 2 parts, base prices |
| Engine.NewEnv | src/engine.py:11-24 | a fresh engine satisfies the running invariant, with no pending orders, base utilities and a soap lead time of 14 under a supply shock, else 1 |
| Engine.Observe | src/engine.py:289-304 | the observation is the state with each machine's health removed, plus the day's profit and the net business value |
| Engine.ObservationHidesHealth | src/engine.py:294-297 | two states differing only in health give the same observation apart from the net business value |
| Engine.Errands | src/engine.py:64-149 | the action's overwrites land on prices, memory and marketing; cash falls by the accepted debt payment, the purchases and the maintenance charges, and debt falls by the accepted payment (not below 0); the machines are exactly the maintenance operations' result on the starting roster; the day, satisfaction and inventory stay, every earlier order stays queued, and no order due today is added except soap |
| Engine.Prepare | src/engine.py:64-156 | the morning fails exactly when an order queued before this step is due for an unknown item; otherwise its state is the errands' state with each inventory item raised by the quantity of that item arriving today, and the queue is exactly the errands' orders not yet due |
| Engine.DoBusiness | src/engine.py:196-260 | demand is the demand formula on the base-demand and flux draws, or zero during an outage; the counts are the working machines; the loads, losses and soap left are the throughput of that demand; the profit is the day's income less utilities, rent and marketing, and the balances are that profit booked with interest |
| Engine.BaseDemand | src/engine.py:196-201 | the base demand is the truncated product of a draw in [20, 40), tripled in a heatwave, with the demand multiplier: in [20, 40) at multiplier 1, and a multiple of 3 in [60, 120) in a heatwave |
| Engine.Noon | src/engine.py:190-194 | the inflation check fails exactly when hyper-inflation is on with interval 0, and otherwise raises utilities by 10% on days divisible by the interval |
| Engine.Evening | src/engine.py:193-304 | the rest of the day advances the day by one, keeps satisfaction in [0, 100], replaces the roster by exactly the fleet's wear for the day's loads (so no working machine is left at or below zero health), keeps every item but soap, carries the day's utility multiplier (inflated or not) into the next day, and takes the two demand draws followed by exactly the fleet's wear draws |
| Engine.EveningBooksDay | src/engine.py:196-284 | the day's report counts the working machines and carries the demand formula on the two draws and that demand's throughput; the observed profit is the day's profit; cash and debt are that profit booked with interest; satisfaction moves by the lost customers, the first machine's worn health and the marketing |
| Engine.Afternoon | src/engine.py:158-304 | the second half of the step fails only on a zero inflation interval, and otherwise keeps the invariants and reports sane throughput |
| Engine.Step | src/engine.py:61-305 | the step fails exactly on an unknown due item or a zero inflation interval; otherwise the day advances by one, satisfaction stays in [0, 100], the roster is kept, no working machine is at or below zero health, no due order stays queued, the soap left is never negative, throughput stays within demand and capacity whenever the soap count was not negative, and the observation hides health |
| Engine.StepPreservesWellFormed | src/engine.py:61-305 | the step keeps the running invariant |
| Engine.StepIsStages | src/engine.py:61-305 | the step succeeds exactly when the morning and the inflation check both succeed, and its result is then the rest of the day on their outcomes, so every stage's contract applies to the step |
| Engine.OutageServesNoOne | src/engine.py:182-184 | on an outage day nobody is served and the day loses exactly the rent and the marketing |
| Engine.EmptyActionIsQuiet | src/engine.py:64-149 | the action stages, on the empty action, leave the state and the order queue exactly as they were, take no draw and log nothing |
| Diagnostics.NewTracker | src/diagnostics.py:7-25 | a new tracker has no history, zero counters and nothing discovered |
| Diagnostics.AvgHealth | src/diagnostics.py:35 | the mean health times the roster size is the health sum; there is no mean for an empty roster |
| Diagnostics.AvgHealthBounds | src/diagnostics.py:35 | the mean health lies within any bounds every machine's health respects |
| Diagnostics.Snapshot | src/diagnostics.py:29-36 | a snapshot keeps the day, cash, debt, satisfaction and mean health, and its working count is exactly the number of roster positions holding a working machine |
| Diagnostics.RepairsAndReplacementsDisjoint | src/diagnostics.py:42-43 | repairs and replacements together never exceed the number of operations |
| Diagnostics.CountRepairs | src/diagnostics.py:42 | the repair count is exactly the number of positions holding a cheap or premium repair |
| Diagnostics.CountReplacements | src/diagnostics.py:43 | the replacement count is exactly the number of positions holding a replacement |
| Diagnostics.CheckPatternDiscovery | src/diagnostics.py:50-79 | replacing a lemon marks the mechanic found with confidence 1; each price change against the adaptive competitor adds 0.2 to the confidence; otherwise nothing changes; a discovery is never undone |
| Diagnostics.RecordStep | src/diagnostics.py:27-48 | one snapshot and one action are appended, the counters grow by the action's inspections, repairs and replacements, and a non-empty price change counts once |
| Diagnostics.RecordStepAsWritten | src/diagnostics.py:27-41 | as written, recording appends the snapshot and the action, then reads an attribute the action type does not declare, and so raises with no counter updated |
| Diagnostics.RecordingAsWrittenAlwaysRaises | src/models.py:29-35 | the as-written recorder raises on the inspection list for every tracker, state and action, leaving the day's snapshot and action recorded and the counters unchanged |
| Diagnostics.RecordAllSummary | src/diagnostics.py:27-48 | over a run the history holds one snapshot per day, in order, the inspection counter is the sum over the actions, and a discovery stays |
| Diagnostics.MeanHealth | src/diagnostics.py:86 | the mean of the daily averages is a number exactly when the history is non-empty and every day has an average |
| Diagnostics.MeanWithin | src/diagnostics.py:86 | when every day's average lies within bounds, the mean of the daily averages exists and lies within them too |
| Diagnostics.ClassifyStrategy | src/diagnostics.py:81-97 | the first matching label in priority order: unknown exactly for an empty history, then neglect (mean health below 0.3), investigative (inspections above half the days), big spender (more than five replacements), preventive (mean health above 0.8), and reactive exactly when every test fails |
| Diagnostics.NeglectedRunIsSlumlord | src/diagnostics.py:86-89 | a run averaging below 0.3 health every day is classified as neglect, including averages below 0 from unclamped wear |
| Diagnostics.HealthyRunIsPreventive | src/diagnostics.py:86-95 | a run averaging above 0.8 health every day (with no upper bound, since a negative degradation multiplier can push health above 1), with few inspections and at most five replacements, is classified as preventive |
| Diagnostics.GenerateReport | src/diagnostics.py:99-113 | survival is the number of recorded days; the final cash and satisfaction are the last day's, or 0 with no history |

## Left out

- Random numbers: numpy's Mersenne Twister is not modelled. Draws are an abstract stream of values in [0, 1), and `randint`/`choice` take the floor of a scaled draw. The contracts fix which draws are taken and in what order, not their values.
- Scenario loading: the JSON scenario file and its seed are not modelled. Settings and the event tape are passed in directly. Settings whose value is JSON `null` are not modelled.
- Rounding: `Scorer.NetBusinessValue` does not round to cents, and neither does the observation's daily profit. Float rounding artefacts are not modelled, because reals are exact.
- Log wording: logs are a datatype of log kinds with their numbers. Message wording and the two-decimal formatting are left out. A symptom carries the index of its phrase rather than the text.
- Purchases: `Orders.Buy` takes a list of (item, quantity) pairs where the source takes a dictionary. Order and quantities are the same; duplicate keys cannot occur in the source.
- Diagnostics lists: the tracker's unused `financials` and `satisfaction` lists are not modelled, and neither are the log lines passed to recording, which are ignored.
- Periodic-inspection mechanic: its branch does nothing, so it is folded into `OtherMechanic`.
- `Engine.Step` states the step's invariants and failure cases, not a closed form of the whole new state. `Engine.StepIsStages` shows the step is its stages composed, and the contracts of `Engine.Prepare`, `Engine.Noon`, `Engine.Evening` and `Engine.EveningBooksDay` state each stage's effect.
- `Engine.OutageServesNoOne` needs a soap count that is not negative. A negative count, reachable only by buying negative quantities, makes the source compute negative washes.
- Not part of this model: the command-line runners (`main.py`, `run_llm.py`), the baseline agents, the LLM wrappers and prompts, and the scenario generator.

## Findings

| source | as written | input that shows it | evidently intended | confidence | as-written member | corrected member |
|---|---|---|---|---|---|---|
| src/diagnostics.py:41 | recording reads `action.inspections`, but the action type (src/models.py:29-35) declares no such field, and pydantic drops unknown fields | any action, e.g. the empty one | the action carries an inspection list, which the counters sum | high (not executed) | Diagnostics.RecordStepAsWritten, Diagnostics.RecordingAsWrittenAlwaysRaises | Diagnostics.RecordStep, Diagnostics.RecordAllSummary |

=== FILE: basics.dfy ===
/** Small shared vocabulary: optional values, results, integer/real helpers,
    Python's truncating `int()` and Python's substring test `sub in s`. */
module Basics {

  /** An optional value (Python's `None` or a value). */
  datatype Option<+T> = None | Some(value: T)

  /** The outcome of an operation that may raise. */
  datatype Result<+T, +E> = Success(value: T) | Failure(error: E)

  function Min(a: int, b: int): (r: int)
    ensures r <= a && r <= b
    ensures r == a || r == b
  {
    if a <= b then a else b
  }

  function Max(a: int, b: int): (r: int)
    ensures a <= r && b <= r
    ensures r == a || r == b
  {
    if a <= b then b else a
  }

  function MinReal(a: real, b: real): (r: real)
    ensures r <= a && r <= b
    ensures r == a || r == b
  {
    if a <= b then a else b
  }

  function MaxReal(a: real, b: real): (r: real)
    ensures a <= r && b <= r
    ensures r == a || r == b
  {
    if a <= b then b else a
  }

  /** `max(lo, min(hi, x))` */
  function Clamp(x: real, lo: real, hi: real): (r: real)
    requires lo <= hi
    ensures lo <= r <= hi
    ensures lo <= x <= hi ==> r == x
  {
    MaxReal(lo, MinReal(hi, x))
  }

  /** Python's `int(x)` on a float: rounds toward zero. */
  function Trunc(x: real): (r: int)
    ensures 0.0 <= x ==> 0 <= r && r as real <= x < r as real + 1.0
    ensures x < 0.0 ==> r <= 0 && r as real - 1.0 < x <= r as real
  {
    if 0.0 <= x then x.Floor else -((-x).Floor)
  }

  lemma TruncMonotone(x: real, y: real)
    requires x <= y
    ensures Trunc(x) <= Trunc(y)
  {
  }

  lemma TruncOfInt(n: int)
    ensures Trunc(n as real) == n
  {
  }

  /** Every element of a set of integers moved up by one. */
  ghost function Shift(xs: set<int>): set<int>
  {
    set x | x in xs :: x + 1
  }

  /** Shifting a set of naturals below `n` by one keeps its size. */
  lemma {:induction false} ShiftKeepsSize(xs: set<int>, n: nat)
    requires forall x :: x in xs ==> 0 <= x < n
    ensures |Shift(xs)| == |xs|
    decreases n
  {
    if n == 0 {
      assert xs == {};
      assert Shift(xs) == {};
    } else {
      var below := set x | x in xs && x < n - 1;
      ShiftKeepsSize(below, n - 1);
      if n - 1 in xs {
        assert xs == below + {n - 1};
        forall z | z in Shift(xs) ensures z in Shift(below) + {n} {
          assert z - 1 in xs;
        }
        assert Shift(xs) == Shift(below) + {n};
      } else {
        assert xs == below;
      }
    }
  }

  /** A set of positions of a sequence, built from whether position 0
      belongs and the positions of the tail moved up by one, counts the
      head and then the tail. */
  lemma PositionsCons(all: set<int>, tail: set<int>, head: bool, n: nat)
    requires forall x :: x in tail ==> 0 <= x < n
    requires all == (if head then {0} else {}) + Shift(tail)
    ensures |all| == (if head then 1 else 0) + |tail|
  {
    ShiftKeepsSize(tail, n);
    assert 0 !in Shift(tail);
  }

  /** Truncating the real quotient of two naturals is integer division. */
  lemma TruncDiv(a: int, b: int)
    requires 0 <= a && 0 < b
    ensures Trunc(a as real / b as real) == a / b
  {
    var q := a / b;
    var r := a % b;
    assert a == q * b + r && 0 <= r < b;
    var x := a as real / b as real;
    assert x * b as real == a as real;
    assert x == q as real + r as real / b as real by {
      assert (q as real + r as real / b as real) * b as real == (q * b + r) as real;
    }
    assert 0.0 <= r as real / b as real < 1.0 by {
      assert (r as real / b as real) * b as real == r as real;
    }
  }

  /** Python's `sub in s` for strings, as a left-to-right scan. */
  function Contains(s: string, sub: string): bool
    decreases |s|
  {
    sub <= s || (0 < |s| && Contains(s[1..], sub))
  }

  /** `sub` occurs in `s` at position `i`. */
  ghost predicate OccursAt(s: string, sub: string, i: int)
  {
    0 <= i <= |s| && sub <= s[i..]
  }

  /** The scan finds `sub` exactly when it occurs somewhere in `s`. */
  lemma {:induction false} ContainsIffOccurs(s: string, sub: string)
    ensures Contains(s, sub) <==> exists i :: OccursAt(s, sub, i)
    decreases |s|
  {
    if sub <= s {
      assert OccursAt(s, sub, 0);
    } else if |s| == 0 {
      assert forall i :: OccursAt(s, sub, i) ==> i == 0;
    } else {
      ContainsIffOccurs(s[1..], sub);
      if Contains(s[1..], sub) {
        var j :| OccursAt(s[1..], sub, j);
        assert s[1..][j..] == s[j + 1..];
        assert OccursAt(s, sub, j + 1);
      } else {
        forall i | OccursAt(s, sub, i)
          ensures false
        {
          assert i != 0;
          assert s[1..][i - 1..] == s[i..];
          assert OccursAt(s[1..], sub, i - 1);
        }
      }
    }
  }
}

=== FILE: config.dfy ===
/** The simulator's economic constants and the per-scenario settings.

    The source reads its scenario settings from a dictionary with a default
    written at each lookup; here they are one record whose `Defaults` carry
    exactly those defaults. An optional starting cash or debt stays optional
    because its default depends on another setting. */
module Config {
  import opened Basics

  const InitialCash: real := 2000.0
  const InitialDebt: real := 0.0
  const InitialSoap: int := 50
  const InitialParts: int := 2

  /** Replacement price of a machine, also its book value in the score. */
  const CostWasher: real := 800.0
  const CostDryer: real := 600.0

  /** One soap unit serves ten loads. */
  const CostSoapUnit: real := 10.0
  const CostPart: real := 150.0

  const PriceWash: real := 5.0
  const PriceDry: real := 4.0
  const FairMarketWash: real := 5.0
  const FairMarketDry: real := 4.0

  const CostUtilityPerLoad: real := 0.5
  const RentDaily: real := 50.0

  const CostRepairCheap: real := 50.0
  const CostRepairPremium: real := 200.0

  /** Loads one machine can run in a day. */
  const MaxCyclesPerDay: int := 10
  /** Soap units per load; a load needs a tenth of a unit. */
  const SoapPerLoad: real := 0.1

  /** Starting balances of the slumlord scenario. */
  const SlumlordCash: real := 500.0
  const SlumlordDebt: real := 10000.0

  /** Scenario settings (the source's `config_overrides`). `rentMult` and
      `competitorActive` are also written by the event tape during a run. */
  datatype Settings = Settings(
    slumlordStart: bool,
    initialCash: Option<real>,
    initialDebt: Option<real>,
    lemonLaw: bool,
    supplyShock: bool,
    repairCostMult: real,
    grifterRepairs: bool,
    griftProb: real,
    rentMult: real,
    competitorActive: bool,
    hyperInflation: bool,
    inflationInterval: int,
    heatwave: bool,
    baseDemandMult: real,
    waterRationing: bool,
    interestRate: real,
    degradationMult: real,
    priceSensitivity: real,
    satisfactionThreshold: real,
    gentrificationStrict: bool)

  /** The value each lookup falls back to when a scenario leaves a key out. */
  const Defaults: Settings := Settings(
    slumlordStart := false,
    initialCash := None,
    initialDebt := None,
    lemonLaw := false,
    supplyShock := false,
    repairCostMult := 1.0,
    grifterRepairs := false,
    griftProb := 0.30,
    rentMult := 1.0,
    competitorActive := false,
    hyperInflation := false,
    inflationInterval := 7,
    heatwave := false,
    baseDemandMult := 1.0,
    waterRationing := false,
    interestRate := 0.001,
    degradationMult := 1.0,
    priceSensitivity := 1.0,
    satisfactionThreshold := 80.0,
    gentrificationStrict := false)
}

=== FILE: diagnostics.dfy ===
/** The run tracker: a per-day snapshot of the state, aggregate counts of
    the agent's maintenance behaviour, a heuristic for whether the agent
    found the scenario's hidden mechanic, and the final classification of
    its strategy. */
module Diagnostics {
  import opened Basics
  import opened Models

  /** The scenario's hidden mechanic. `None` stands for a missing or empty
      description, which the tracker ignores. */
  datatype Mechanic =
    | LemonMachines(lemonIds: seq<int>)
    | AdaptiveCompetitor
    | OtherMechanic(tag: string)

  /** One day's snapshot. The average health is `None` when the roster is
      empty (the mean of an empty list is not a number). */
  datatype StepRecord = StepRecord(
    day: int, cash: real, debt: real, satisfaction: real,
    machinesWorking: nat, avgHealth: Option<real>)

  datatype Tracker = Tracker(
    scenarioId: string,
    mechanic: Option<Mechanic>,
    history: seq<StepRecord>,
    actions: seq<Action>,
    inspections: nat,
    repairs: nat,
    replacements: nat,
    pricingChanges: nat,
    discovered: bool,
    confidence: real)

  function NewTracker(scenarioId: string, mechanic: Option<Mechanic>): (t: Tracker)
    ensures t.history == [] && t.actions == []
    ensures t.inspections == 0 && t.repairs == 0 && t.replacements == 0 && t.pricingChanges == 0
    ensures !t.discovered && t.confidence == 0.0
  {
    Tracker(scenarioId, mechanic, [], [], 0, 0, 0, 0, false, 0.0)
  }

  // ---------------------------------------------------------------------
  // Snapshots
  // ---------------------------------------------------------------------

  /** The roster positions holding a working machine of either type. */
  ghost function WorkingAt(ms: seq<Machine>): set<int>
  {
    set i | 0 <= i < |ms| && ms[i].status == Working
  }

  /** The number of working machines. */
  function CountWorkingAll(ms: seq<Machine>): (n: nat)
    ensures n == |WorkingAt(ms)|
    ensures n <= |ms|
  {
    if ms == [] then
      assert WorkingAt(ms) == {};
      0
    else
      var head := ms[0].status == Working;
      var tail := WorkingAt(ms[1..]);
      forall i | i in WorkingAt(ms) ensures i in (if head then {0} else {}) + Shift(tail) {
        if i != 0 {
          assert ms[1..][i - 1] == ms[i];
          assert i - 1 in tail;
        }
      }
      forall i | i in (if head then {0} else {}) + Shift(tail) ensures i in WorkingAt(ms) {
        if i != 0 {
          assert ms[1..][i - 1] == ms[i];
        }
      }
      PositionsCons(WorkingAt(ms), tail, head, |ms| - 1);
      (if head then 1 else 0) + CountWorkingAll(ms[1..])
  }

  function SumHealth(ms: seq<Machine>): real
  {
    if ms == [] then 0.0 else ms[0].health + SumHealth(ms[1..])
  }

  /** Health bounds carry over to the sum. */
  lemma {:induction false} SumHealthBounds(ms: seq<Machine>, lo: real, hi: real)
    requires forall i :: 0 <= i < |ms| ==> lo <= ms[i].health <= hi
    ensures |ms| as real * lo <= SumHealth(ms) <= |ms| as real * hi
  {
    if ms != [] {
      assert forall i :: 0 <= i < |ms| - 1 ==> ms[1..][i] == ms[i + 1];
      SumHealthBounds(ms[1..], lo, hi);
      assert |ms| as real * lo == lo + (|ms| - 1) as real * lo;
      assert |ms| as real * hi == hi + (|ms| - 1) as real * hi;
    }
  }

  /** The roster's mean health; none for an empty roster. */
  function AvgHealth(ms: seq<Machine>): (r: Option<real>)
    ensures r.None? <==> ms == []
    ensures r.Some? ==> r.value * |ms| as real == SumHealth(ms)
  {
    if ms == [] then None else Some(SumHealth(ms) / |ms| as real)
  }

  /** When every machine's health lies in [lo, hi], so does the mean. */
  lemma AvgHealthBounds(ms: seq<Machine>, lo: real, hi: real)
    requires ms != []
    requires forall i :: 0 <= i < |ms| ==> lo <= ms[i].health <= hi
    ensures lo <= AvgHealth(ms).value <= hi
  {
    SumHealthBounds(ms, lo, hi);
    DivBounds(SumHealth(ms), |ms| as real, lo, hi);
  }

  lemma DivBounds(x: real, n: real, lo: real, hi: real)
    requires 0.0 < n && n * lo <= x <= n * hi
    ensures lo <= x / n <= hi
  {
    assert x / n * n == x;
  }

  /** What the tracker keeps of a state. */
  function Snapshot(s: State): (r: StepRecord)
    ensures r.day == s.day && r.cash == s.cash && r.debt == s.debt && r.satisfaction == s.satisfaction
    ensures r.machinesWorking == |WorkingAt(s.machines)| && r.machinesWorking <= |s.machines|
    ensures r.avgHealth == AvgHealth(s.machines)
  {
    StepRecord(s.day, s.cash, s.debt, s.satisfaction, CountWorkingAll(s.machines), AvgHealth(s.machines))
  }

  // ---------------------------------------------------------------------
  // Recording
  // ---------------------------------------------------------------------

  /** The positions of the repairs (cheap or premium) among the operations. */
  ghost function RepairsAt(ops: seq<MaintenanceOp>): set<int>
  {
    set i | 0 <= i < |ops| && IsRepair(ops[i].action)
  }

  /** The positions of the replacements among the operations. */
  ghost function ReplacementsAt(ops: seq<MaintenanceOp>): set<int>
  {
    set i | 0 <= i < |ops| && ops[i].action == Replace
  }

  /** The number of repairs: exactly the positions holding one. */
  function CountRepairs(ops: seq<MaintenanceOp>): (n: nat)
    ensures n == |RepairsAt(ops)|
    ensures n <= |ops|
  {
    if ops == [] then
      assert RepairsAt(ops) == {};
      0
    else
      var head := IsRepair(ops[0].action);
      var tail := RepairsAt(ops[1..]);
      forall i | i in RepairsAt(ops) ensures i in (if head then {0} else {}) + Shift(tail) {
        if i != 0 {
          assert ops[1..][i - 1] == ops[i];
          assert i - 1 in tail;
        }
      }
      forall i | i in (if head then {0} else {}) + Shift(tail) ensures i in RepairsAt(ops) {
        if i != 0 {
          assert ops[1..][i - 1] == ops[i];
        }
      }
      PositionsCons(RepairsAt(ops), tail, head, |ops| - 1);
      (if head then 1 else 0) + CountRepairs(ops[1..])
  }

  /** The number of replacements: exactly the positions holding one. */
  function CountReplacements(ops: seq<MaintenanceOp>): (n: nat)
    ensures n == |ReplacementsAt(ops)|
    ensures n <= |ops|
  {
    if ops == [] then
      assert ReplacementsAt(ops) == {};
      0
    else
      var head := ops[0].action == Replace;
      var tail := ReplacementsAt(ops[1..]);
      forall i | i in ReplacementsAt(ops) ensures i in (if head then {0} else {}) + Shift(tail) {
        if i != 0 {
          assert ops[1..][i - 1] == ops[i];
          assert i - 1 in tail;
        }
      }
      forall i | i in (if head then {0} else {}) + Shift(tail) ensures i in ReplacementsAt(ops) {
        if i != 0 {
          assert ops[1..][i - 1] == ops[i];
        }
      }
      PositionsCons(ReplacementsAt(ops), tail, head, |ops| - 1);
      (if head then 1 else 0) + CountReplacements(ops[1..])
  }

  /** A repair and a replacement are different operations, so the two
      counts together never exceed the number of operations. */
  lemma {:induction false} RepairsAndReplacementsDisjoint(ops: seq<MaintenanceOp>)
    ensures CountRepairs(ops) + CountReplacements(ops) <= |ops|
  {
    if ops != [] {
      RepairsAndReplacementsDisjoint(ops[1..]);
    }
  }

  /** Does the action replace a machine the scenario marked as a lemon? */
  predicate ReplacesLemon(a: Action, lemonIds: seq<int>)
  {
    exists j :: 0 <= j < |a.maintenanceOps| && a.maintenanceOps[j].action == Replace
                && a.maintenanceOps[j].machineId in lemonIds
  }

  /** Discovery heuristic. Lemons: replacing one of them counts as found,
      with full confidence. Adaptive competitor: each pricing change adds
      0.2 to the confidence, which has no upper bound and never sets the
      found flag. Any other mechanic, or none, changes nothing. */
  function CheckPatternDiscovery(t: Tracker, a: Action): (r: Tracker)
    ensures r == t.(discovered := r.discovered, confidence := r.confidence)
    ensures t.discovered ==> r.discovered
    ensures t.confidence <= r.confidence || (r.discovered && r.confidence == 1.0)
    ensures r.discovered && !t.discovered <==>
      !t.discovered && t.mechanic.Some? && t.mechanic.value.LemonMachines?
      && ReplacesLemon(a, t.mechanic.value.lemonIds)
    ensures t.mechanic.Some? && t.mechanic.value.LemonMachines? ==>
      r == (if ReplacesLemon(a, t.mechanic.value.lemonIds) then t.(discovered := true, confidence := 1.0) else t)
    ensures t.mechanic.Some? && t.mechanic.value.AdaptiveCompetitor? ==>
      r.discovered == t.discovered
      && r.confidence == (if |a.pricingChange| != 0 then t.confidence + 0.2 else t.confidence)
    ensures (t.mechanic.None? || t.mechanic.value.OtherMechanic?) ==> r == t
  {
    match t.mechanic
    case None => t
    case Some(LemonMachines(ids)) =>
      if ReplacesLemon(a, ids) then t.(discovered := true, confidence := 1.0) else t
    case Some(AdaptiveCompetitor) =>
      if |a.pricingChange| != 0 then t.(confidence := t.confidence + 0.2) else t
    case Some(OtherMechanic(_)) => t
  }

  /** One day: the snapshot and the action are appended, the counters grow
      by the action's inspections, repairs and replacements, a non-empty
      pricing change counts once, then the discovery heuristic runs. The
      day's log lines are accepted but unused. */
  function RecordStep(t: Tracker, s: State, a: Action, logs: seq<Log>): (r: Tracker)
    ensures r.history == t.history + [Snapshot(s)] && r.actions == t.actions + [a]
    ensures r.inspections == t.inspections + |a.inspections|
    ensures r.repairs == t.repairs + CountRepairs(a.maintenanceOps)
    ensures r.replacements == t.replacements + CountReplacements(a.maintenanceOps)
    ensures r.pricingChanges == t.pricingChanges + (if |a.pricingChange| != 0 then 1 else 0)
    ensures r.scenarioId == t.scenarioId && r.mechanic == t.mechanic
    ensures t.discovered ==> r.discovered
  {
    var t1 := t.(history := t.history + [Snapshot(s)], actions := t.actions + [a],
                 inspections := t.inspections + |a.inspections|,
                 repairs := t.repairs + CountRepairs(a.maintenanceOps),
                 replacements := t.replacements + CountReplacements(a.maintenanceOps),
                 pricingChanges := t.pricingChanges + (if |a.pricingChange| != 0 then 1 else 0));
    CheckPatternDiscovery(t1, a)
  }

  /** The attributes models.py declares for an action. The inspection list
      that the tracker reads is not among them. */
  const DeclaredActionFields: set<string> :=
    {"pricing_change", "buy_inventory", "maintenance_ops", "marketing_change", "pay_debt", "update_memory"}

  /** An attribute lookup that raised, and the tracker as the raise left it. */
  datatype Raised = Raised(attribute: string, tracker: Tracker)

  /** Recording as the source has it: the snapshot and the action are
      appended first, then the counter update reads the action's inspection
      list, which an action of the declared type does not have. The lookup
      raises, leaving the tracker with one more snapshot and action and no
      counter or discovery update; the run loop (run_llm.py:42) does not catch
      it. */
  function RecordStepAsWritten(t: Tracker, s: State, a: Action, logs: seq<Log>): (r: Result<Tracker, Raised>)
    ensures r.Success? ==> r.value == RecordStep(t, s, a, logs)
    ensures r.Failure? ==>
      var u := r.error.tracker;
      && r.error.attribute !in DeclaredActionFields
      && u.history == t.history + [Snapshot(s)] && u.actions == t.actions + [a]
      && u == t.(history := u.history, actions := u.actions)
  {
    if "inspections" in DeclaredActionFields then Success(RecordStep(t, s, a, logs))
    else Failure(Raised("inspections", t.(history := t.history + [Snapshot(s)], actions := t.actions + [a])))
  }

  /** Every call of the as-written recorder raises, for every tracker, state
      and action, on the inspection list; the tracker it leaves behind has
      the day's snapshot and action but counters that miss the day, unlike
      the corrected recorder's. */
  lemma RecordingAsWrittenAlwaysRaises(t: Tracker, s: State, a: Action, logs: seq<Log>)
    ensures var r := RecordStepAsWritten(t, s, a, logs);
      && r.Failure? && r.error.attribute == "inspections"
      && r.error.tracker.history == RecordStep(t, s, a, logs).history
      && r.error.tracker.actions == RecordStep(t, s, a, logs).actions
      && r.error.tracker.repairs == t.repairs && r.error.tracker.inspections == t.inspections
  {
    assert "inspections" !in DeclaredActionFields;
  }

  /** A whole run's days in order. */
  datatype Day = Day(state: State, action: Action, logs: seq<Log>)

  function RecordAll(t: Tracker, days: seq<Day>): Tracker
    decreases |days|
  {
    if days == [] then t else RecordAll(RecordStep(t, days[0].state, days[0].action, days[0].logs), days[1..])
  }

  function TotalInspections(days: seq<Day>): nat
  {
    if days == [] then 0 else |days[0].action.inspections| + TotalInspections(days[1..])
  }

  /** Over a run, the history holds one snapshot per day, in order, the
      inspection counter is the sum over all actions, and a discovered
      mechanic stays discovered. */
  lemma {:induction false} RecordAllSummary(t: Tracker, days: seq<Day>)
    ensures |RecordAll(t, days).history| == |t.history| + |days|
    ensures RecordAll(t, days).history[..|t.history|] == t.history
    ensures forall i :: 0 <= i < |days| ==> RecordAll(t, days).history[|t.history| + i] == Snapshot(days[i].state)
    ensures RecordAll(t, days).inspections == t.inspections + TotalInspections(days)
    ensures t.discovered ==> RecordAll(t, days).discovered
    decreases |days|
  {
    if days != [] {
      var t1 := RecordStep(t, days[0].state, days[0].action, days[0].logs);
      RecordAllSummary(t1, days[1..]);
      var r := RecordAll(t, days);
      assert r == RecordAll(t1, days[1..]);
      assert r.history[..|t.history|] == t.history by {
        assert r.history[..|t1.history|][..|t.history|] == t1.history[..|t.history|];
      }
      forall i | 0 <= i < |days|
        ensures r.history[|t.history| + i] == Snapshot(days[i].state)
      {
        if i == 0 {
          assert r.history[..|t1.history|][|t.history|] == t1.history[|t.history|];
        } else {
          assert days[1..][i - 1] == days[i];
        }
      }
    }
  }

  // ---------------------------------------------------------------------
  // Classification and report
  // ---------------------------------------------------------------------

  datatype Strategy = Unknown | Slumlord | Investigative | BigSpender | Preventive | Reactive

  function StrategyName(s: Strategy): string
  {
    match s
    case Unknown => "Unknown"
    case Slumlord => "Slumlord (Neglect)"
    case Investigative => "Investigative"
    case BigSpender => "Big Spender"
    case Preventive => "Preventive Maintenance"
    case Reactive => "Reactive Maintenance"
  }

  /** Does some day lack an average (an empty roster that day)? */
  predicate AnyMissing(h: seq<StepRecord>)
  {
    exists i :: 0 <= i < |h| && h[i].avgHealth.None?
  }

  function SumAvg(h: seq<StepRecord>): real
    requires !AnyMissing(h)
  {
    if h == [] then 0.0
    else
      assert forall i :: 0 <= i < |h| - 1 ==> h[1..][i] == h[i + 1];
      h[0].avgHealth.value + SumAvg(h[1..])
  }

  lemma {:induction false} SumAvgBounds(h: seq<StepRecord>, lo: real, hi: real)
    requires forall i :: 0 <= i < |h| ==> h[i].avgHealth.Some? && lo <= h[i].avgHealth.value <= hi
    ensures !AnyMissing(h)
    ensures |h| as real * lo <= SumAvg(h) <= |h| as real * hi
  {
    if h != [] {
      assert forall i :: 0 <= i < |h| - 1 ==> h[1..][i] == h[i + 1];
      SumAvgBounds(h[1..], lo, hi);
      assert |h| as real * lo == lo + (|h| - 1) as real * lo;
      assert |h| as real * hi == hi + (|h| - 1) as real * hi;
    }
  }

  /** The mean of the daily averages over the history. It is not a number
      (`None`) when the history is empty or some day has no average; every
      comparison with it is then false. */
  function MeanHealth(h: seq<StepRecord>): (r: Option<real>)
    ensures r.Some? <==> h != [] && !AnyMissing(h)
  {
    if h == [] || AnyMissing(h) then None else Some(SumAvg(h) / |h| as real)
  }

  /** Comparisons with a value that is not a number are false. */
  predicate Below(x: Option<real>, c: real) { x.Some? && x.value < c }
  predicate Above(x: Option<real>, c: real) { x.Some? && c < x.value }

  /** The first matching rule: no history; mean health below 0.3;
      inspections more than half the days; more than five replacements;
      mean health above 0.8; otherwise reactive. */
  function ClassifyStrategy(t: Tracker): (r: Strategy)
    ensures r == Unknown <==> t.history == []
    ensures r == Slumlord <==> t.history != [] && Below(MeanHealth(t.history), 0.3)
    ensures r == Investigative <==>
      t.history != [] && !Below(MeanHealth(t.history), 0.3) && (t.inspections as real) > |t.history| as real * 0.5
    ensures r == BigSpender <==>
      t.history != [] && !Below(MeanHealth(t.history), 0.3) && (t.inspections as real) <= |t.history| as real * 0.5
      && t.replacements > 5
    ensures r == Preventive <==>
      t.history != [] && !Below(MeanHealth(t.history), 0.3) && (t.inspections as real) <= |t.history| as real * 0.5
      && t.replacements <= 5 && Above(MeanHealth(t.history), 0.8)
    ensures r == Reactive <==>
      t.history != [] && !Below(MeanHealth(t.history), 0.3) && (t.inspections as real) <= |t.history| as real * 0.5
      && t.replacements <= 5 && !Above(MeanHealth(t.history), 0.8)
    ensures t.history != [] && MeanHealth(t.history).None? ==> r != Slumlord && r != Preventive
  {
    if t.history == [] then Unknown
    else
      var avg := MeanHealth(t.history);
      if Below(avg, 0.3) then Slumlord
      else if (t.inspections as real) > |t.history| as real * 0.5 then Investigative
      else if t.replacements > 5 then BigSpender
      else if Above(avg, 0.8) then Preventive
      else Reactive
  }

  /** When every day's average lies within bounds, so does the mean. */
  lemma MeanWithin(h: seq<StepRecord>, lo: real, hi: real)
    requires h != []
    requires forall i :: 0 <= i < |h| ==> h[i].avgHealth.Some? && lo <= h[i].avgHealth.value <= hi
    ensures MeanHealth(h).Some? && lo <= MeanHealth(h).value <= hi
  {
    SumAvgBounds(h, lo, hi);
    DivBounds(SumAvg(h), |h| as real, lo, hi);
  }

  /** A run whose every day averaged below 0.3 health is classified as
      neglect, whatever else the agent did. */
  lemma NeglectedRunIsSlumlord(t: Tracker)
    requires t.history != []
    requires forall i :: 0 <= i < |t.history| ==>
      t.history[i].avgHealth.Some? && t.history[i].avgHealth.value < 0.3
    ensures ClassifyStrategy(t) == Slumlord
  {
    var h := t.history;
    var j :| 0 <= j < |h| && h[j].avgHealth.value == MaxDailyAvg(h);
    MeanWithin(h, MinDailyAvg(h), MaxDailyAvg(h));
    assert Below(MeanHealth(h), 0.3);
  }

  /** A run whose every day averaged above 0.8 health, with few inspections
      and at most five replacements, is classified as preventive. */
  lemma HealthyRunIsPreventive(t: Tracker)
    requires t.history != []
    requires forall i :: 0 <= i < |t.history| ==>
      t.history[i].avgHealth.Some? && 0.8 < t.history[i].avgHealth.value
    requires (t.inspections as real) <= |t.history| as real * 0.5 && t.replacements <= 5
    ensures ClassifyStrategy(t) == Preventive
  {
    var h := t.history;
    var j :| 0 <= j < |h| && h[j].avgHealth.value == MinDailyAvg(h);
    MeanWithin(h, MinDailyAvg(h), MaxDailyAvg(h));
    assert Above(MeanHealth(h), 0.8) && !Below(MeanHealth(h), 0.3);
  }

  /** The largest daily average of a history with no missing day. */
  function MaxDailyAvg(h: seq<StepRecord>): (m: real)
    requires h != [] && forall i :: 0 <= i < |h| ==> h[i].avgHealth.Some?
    ensures forall i :: 0 <= i < |h| ==> h[i].avgHealth.value <= m
    ensures exists i :: 0 <= i < |h| && h[i].avgHealth.value == m
  {
    if |h| == 1 then h[0].avgHealth.value
    else
      assert forall i :: 0 <= i < |h| - 1 ==> h[1..][i] == h[i + 1];
      var rest := MaxDailyAvg(h[1..]);
      var j :| 0 <= j < |h[1..]| && h[1..][j].avgHealth.value == rest;
      assert h[j + 1].avgHealth.value == rest;
      MaxReal(h[0].avgHealth.value, rest)
  }

  /** The smallest daily average of a history with no missing day. */
  function MinDailyAvg(h: seq<StepRecord>): (m: real)
    requires h != [] && forall i :: 0 <= i < |h| ==> h[i].avgHealth.Some?
    ensures forall i :: 0 <= i < |h| ==> m <= h[i].avgHealth.value
    ensures exists i :: 0 <= i < |h| && h[i].avgHealth.value == m
  {
    if |h| == 1 then h[0].avgHealth.value
    else
      assert forall i :: 0 <= i < |h| - 1 ==> h[1..][i] == h[i + 1];
      var rest := MinDailyAvg(h[1..]);
      var j :| 0 <= j < |h[1..]| && h[1..][j].avgHealth.value == rest;
      assert h[j + 1].avgHealth.value == rest;
      MinReal(h[0].avgHealth.value, rest)
  }

  datatype Metrics = Metrics(inspections: nat, repairs: nat, replacements: nat)

  datatype Report = Report(
    scenarioId: string, strategy: string, discovered: bool,
    finalCash: real, finalSatisfaction: real, survivalDays: nat, metrics: Metrics)

  /** The final report: survival is the number of recorded days; the final
      cash and satisfaction are the last day's, or zero when nothing was
      recorded. */
  function GenerateReport(t: Tracker): (r: Report)
    ensures r.survivalDays == |t.history|
    ensures t.history == [] ==> r.finalCash == 0.0 && r.finalSatisfaction == 0.0 && r.strategy == "Unknown"
    ensures t.history != [] ==>
      r.finalCash == t.history[|t.history| - 1].cash
      && r.finalSatisfaction == t.history[|t.history| - 1].satisfaction
    ensures r.strategy == StrategyName(ClassifyStrategy(t))
    ensures r.discovered == t.discovered && r.scenarioId == t.scenarioId
    ensures r.metrics == Metrics(t.inspections, t.repairs, t.replacements)
  {
    var last := if t.history == [] then None else Some(t.history[|t.history| - 1]);
    Report(t.scenarioId, StrategyName(ClassifyStrategy(t)), t.discovered,
           if last.Some? then last.value.cash else 0.0,
           if last.Some? then last.value.satisfaction else 0.0,
           |t.history|, Metrics(t.inspections, t.repairs, t.replacements))
  }
}

=== FILE: engine.dfy ===
/** The simulator: its initial state and the day step, which applies the
    agent's action and one simulated day in a fixed order and returns the
    observation the agent sees. The engine's random generator is the stream
    `src` read from the cursor `pos`; the scenario file is given as its
    settings and its event tape. */
module Engine {
  import opened Basics
  import opened Config
  import opened Models
  import opened Random
  import opened Mechanics
  import opened Scorer
  import opened Finance
  import opened Orders
  import opened Maintenance
  import opened Events
  import opened Operations

  /** The engine's whole state. `config` holds the scenario settings, which
      the event tape may change; the tape is keyed by day number. */
  datatype Env = Env(
    config: Settings,
    state: State,
    pending: seq<Order>,
    utilityCostMult: real,
    soapLeadTime: int,
    eventTape: map<int, seq<string>>)

  /** Ids 1-6 are washers, 7-10 dryers. */
  function KindOf(id: int): MachineType
  {
    if id <= 6 then Washer else Dryer
  }

  const RosterSize: nat := 10

  /** What every step relies on: a first machine (the storefront) and the
      price and stock keys it reads. */
  ghost predicate Runnable(e: Env)
  {
    && 0 < |e.state.machines|
    && "wash" in e.state.pricing && "dry" in e.state.pricing
    && "soap" in e.state.inventory
  }

  /** The invariant of a running engine: the fixed roster of ten machines,
      satisfaction within [0, 100], and no working machine at or below zero
      health. */
  ghost predicate WellFormed(e: Env)
  {
    && Runnable(e)
    && |e.state.machines| == RosterSize
    && (forall i :: 0 <= i < RosterSize ==>
          e.state.machines[i].id == i + 1 && e.state.machines[i].kind == KindOf(i + 1))
    && 0.0 <= e.state.satisfaction <= 100.0
    && (forall i :: 0 <= i < |e.state.machines| ==>
          e.state.machines[i].status == Working ==> 0.0 < e.state.machines[i].health)
  }

  // ---------------------------------------------------------------------
  // Construction
  // ---------------------------------------------------------------------

  function InitialMachine(cfg: Settings, id: int): Machine
  {
    var age := if cfg.lemonLaw then 50 else 0;
    if cfg.slumlordStart && id % 2 == 0 then Machine(id, KindOf(id), Broken, 3000, 0.0, 1.0)
    else NewMachine(id, KindOf(id)).(ageCycles := age)
  }

  /** The fixed roster: ids 1..10, washers then dryers, all new and working,
      except that the lemon-law scenario starts them at age 50 and the
      slumlord scenario starts every even id broken at zero health and age
      3000. */
  function InitialMachines(cfg: Settings): (ms: seq<Machine>)
    ensures |ms| == RosterSize
    ensures forall i :: 0 <= i < RosterSize ==>
      && ms[i].id == i + 1
      && (ms[i].kind == Washer <==> i + 1 <= 6)
      && ms[i].efficiency == 1.0
      && (cfg.slumlordStart && (i + 1) % 2 == 0 ==>
            ms[i].status == Broken && ms[i].health == 0.0 && ms[i].ageCycles == 3000)
      && (!(cfg.slumlordStart && (i + 1) % 2 == 0) ==>
            ms[i].status == Working && ms[i].health == 1.0
            && ms[i].ageCycles == (if cfg.lemonLaw then 50 else 0))
  {
    seq(RosterSize, i requires 0 <= i < RosterSize => InitialMachine(cfg, i + 1))
  }

  function InitialState(cfg: Settings): (s: State)
    ensures s.day == 1
    ensures s.cash == match cfg.initialCash
                      case Some(c) => c
                      case None => if cfg.slumlordStart then SlumlordCash else InitialCash
    ensures s.debt == match cfg.initialDebt
                      case Some(d) => d
                      case None => if cfg.slumlordStart then SlumlordDebt else InitialDebt
    ensures s.inventory == map["soap" := InitialSoap, "machine_parts" := InitialParts]
    ensures s.pricing == map["wash" := PriceWash, "dry" := PriceDry]
    ensures s.marketingSpend == 0.0 && s.satisfaction == 100.0
    ensures s.machines == InitialMachines(cfg)
    ensures s.logHistory == [] && s.agentMemory == ""
  {
    var cash := match cfg.initialCash
                case Some(c) => c
                case None => if cfg.slumlordStart then SlumlordCash else InitialCash;
    var debt := match cfg.initialDebt
                case Some(d) => d
                case None => if cfg.slumlordStart then SlumlordDebt else InitialDebt;
    NewState(1, cash, debt, map["soap" := InitialSoap, "machine_parts" := InitialParts],
             map["wash" := PriceWash, "dry" := PriceDry], 0.0, InitialMachines(cfg))
  }

  /** A fresh engine: no pending orders, utilities at base price, soap lead
      time 14 days under a supply shock and 1 otherwise. It satisfies the
      running invariant. */
  function NewEnv(cfg: Settings, tape: map<int, seq<string>>): (e: Env)
    ensures WellFormed(e)
    ensures e.state == InitialState(cfg) && e.pending == [] && e.utilityCostMult == 1.0
    ensures e.soapLeadTime == (if cfg.supplyShock then 14 else 1)
    ensures e.config == cfg && e.eventTape == tape
  {
    Env(cfg, InitialState(cfg), [], 1.0, if cfg.supplyShock then 14 else 1, tape)
  }

  // ---------------------------------------------------------------------
  // Observation
  // ---------------------------------------------------------------------

  /** A machine as the agent sees it: everything but its health. */
  datatype MachineView = MachineView(id: int, kind: MachineType, status: Status, ageCycles: int, efficiency: real)

  /** The internal metrics returned alongside the observation. */
  datatype Summary = Summary(dailyProfit: real, nbv: real)

  datatype Observation = Observation(
    day: int,
    cash: real,
    debt: real,
    inventory: map<string, int>,
    pricing: map<string, real>,
    marketingSpend: real,
    satisfaction: real,
    machines: seq<MachineView>,
    logHistory: seq<Log>,
    agentMemory: string,
    summary: Summary)

  function View(m: Machine): MachineView
  {
    MachineView(m.id, m.kind, m.status, m.ageCycles, m.efficiency)
  }

  /** The state's dump with each machine's health removed, plus the day's
      profit and the net business value. */
  function Observe(s: State, profit: real): (o: Observation)
    ensures o.day == s.day && o.cash == s.cash && o.debt == s.debt
    ensures o.inventory == s.inventory && o.pricing == s.pricing
    ensures o.marketingSpend == s.marketingSpend && o.satisfaction == s.satisfaction
    ensures o.logHistory == s.logHistory && o.agentMemory == s.agentMemory
    ensures |o.machines| == |s.machines|
    ensures forall i :: 0 <= i < |s.machines| ==>
      && o.machines[i].id == s.machines[i].id && o.machines[i].kind == s.machines[i].kind
      && o.machines[i].status == s.machines[i].status && o.machines[i].ageCycles == s.machines[i].ageCycles
      && o.machines[i].efficiency == s.machines[i].efficiency
    ensures o.summary == Summary(profit, NetBusinessValue(s))
  {
    Observation(s.day, s.cash, s.debt, s.inventory, s.pricing, s.marketingSpend, s.satisfaction,
                seq(|s.machines|, i requires 0 <= i < |s.machines| => View(s.machines[i])),
                s.logHistory, s.agentMemory, Summary(profit, NetBusinessValue(s)))
  }

  /** Two states that differ at most in the machines' health. */
  ghost predicate SameButHealth(s1: State, s2: State)
  {
    && s2 == s1.(machines := s2.machines)
    && |s1.machines| == |s2.machines|
    && forall i :: 0 <= i < |s1.machines| ==> s2.machines[i] == s1.machines[i].(health := s2.machines[i].health)
  }

  /** Health is hidden: apart from the net business value, the observation
      of two states that differ only in health is the same. */
  lemma ObservationHidesHealth(s1: State, s2: State, profit: real)
    requires SameButHealth(s1, s2)
    ensures Observe(s1, profit).(summary := Summary(profit, 0.0)) == Observe(s2, profit).(summary := Summary(profit, 0.0))
  {
    var o1 := Observe(s1, profit);
    var o2 := Observe(s2, profit);
    assert o1.machines == o2.machines;
  }

  // ---------------------------------------------------------------------
  // The day step
  // ---------------------------------------------------------------------

  datatype StepError = UnknownItem(item: string) | ZeroInflationInterval

  /** The morning's result: the state after the action and the deliveries,
      the remaining queue, the logs so far and the cursor. */
  datatype Morning = Morning(state: State, pending: seq<Order>, logs: seq<Log>, pos: nat)

  /** The morning errands: the configuration and memory updates, the
      financial transactions (debt payment and purchases) and maintenance. The
      queue keeps every earlier order and gains the new ones, none of them due
      today except soap under a lead time below one day. */
  function Errands(e: Env, a: Action, src: Stream, pos: nat): (r: Morning)
    requires Runnable(e)
    ensures r.state.day == e.state.day && r.state.satisfaction == e.state.satisfaction
    ensures r.state.inventory == e.state.inventory
    ensures "wash" in r.state.pricing && "dry" in r.state.pricing
    ensures SameRoster(e.state.machines, r.state.machines)
    ensures r.state.machines == ApplyOps(e.state, a.maintenanceOps, e.config, src, pos).state.machines
    ensures forall o :: o in e.pending ==> o in r.pending
    ensures forall o :: o in r.pending && o.arrival <= e.state.day ==> o in e.pending || o.item == "soap"
    ensures r.pos == pos + OpsDraws(e.state.machines, a.maintenanceOps, e.config)
    ensures var u := ApplyUpdates(e.state, a);
      r.state.pricing == u.pricing && r.state.agentMemory == u.agentMemory
      && r.state.marketingSpend == u.marketingSpend
    ensures var accepted := 0.0 < a.payDebt <= e.state.cash;
      && r.state.cash == e.state.cash - (if accepted then a.payDebt else 0.0)
                         - PurchaseCost(a.buyInventory) - OpsCost(e.state.machines, a.maintenanceOps, e.config)
      && r.state.debt == (if accepted then MaxReal(0.0, e.state.debt - a.payDebt) else e.state.debt)
  {
    var s1 := ApplyUpdates(e.state, a);
    var paid := PayDebt(s1, a.payDebt);
    var bought := Buy(paid.state, e.pending, a.buyInventory, e.soapLeadTime);
    var serviced := ApplyOps(bought.state, a.maintenanceOps, e.config, src, pos);
    var s4 := serviced.state;
    assert bought.state.machines == e.state.machines;
    OpsIgnoreRest(bought.state, e.state, a.maintenanceOps, e.config, src, pos);
    BuyKeepsQueue(paid.state, e.pending, a.buyInventory, e.soapLeadTime);
    Morning(s4, bought.pending, paid.logs + bought.logs + serviced.logs, serviced.pos)
  }

  /** The errands, then the receipt of inventory. It raises only when an
      order already queued before this step is due and names an item the
      inventory does not count. */
  function Prepare(e: Env, a: Action, src: Stream, pos: nat): (r: Result<Morning, StepError>)
    requires Runnable(e)
    ensures r.Success? <==>
      forall o :: o in e.pending && o.arrival <= e.state.day ==> o.item in e.state.inventory
    ensures r.Failure? ==>
      && r.error.UnknownItem?
      && (exists o :: o in e.pending && o.arrival <= e.state.day && o.item == r.error.item && o.item !in e.state.inventory)
    ensures r.Success? ==>
      && r.value.state.day == e.state.day
      && r.value.state.satisfaction == e.state.satisfaction
      && r.value.state.inventory.Keys == e.state.inventory.Keys
      && "wash" in r.value.state.pricing && "dry" in r.value.state.pricing
      && SameRoster(e.state.machines, r.value.state.machines)
      && (forall o :: o in r.value.pending ==> e.state.day < o.arrival)
      && r.value.pos == pos + OpsDraws(e.state.machines, a.maintenanceOps, e.config)
    ensures r.Success? ==>
      var m := Errands(e, a, src, pos);
      && r.value.state == m.state.(inventory := r.value.state.inventory)
      && r.value.pending == Kept(m.pending, e.state.day)
      && forall k :: k in e.state.inventory ==>
           r.value.state.inventory[k] == e.state.inventory[k] + QtyOf(Arrived(m.pending, e.state.day), k)
  {
    var m := Errands(e, a, src, pos);
    match Deliver(m.state.inventory, m.pending, m.state.day)
    case Failure(item) =>
      var o :| o in m.pending && o.arrival <= m.state.day && o.item == item;
      assert o in e.pending;
      Failure(UnknownItem(item))
    case Success(d) =>
      Success(m.(state := m.state.(inventory := d.inventory), pending := d.pending, logs := m.logs + d.logs))
  }

  /** The day's local quantities, returned for stating properties. */
  datatype DayReport = DayReport(
    demand: int, washers: nat, dryers: nat, maxCycles: nat,
    soapBefore: int, soapAfter: int, washes: int, dries: int, lost: int)

  /** The day's throughput is sane: demand and the soap left are never
      negative, and whenever the soap count was not negative either, dries
      never exceed washes, washes never exceed demand or the washers'
      capacity, dries never exceed the dryers' capacity, and the soap does
      not grow. */
  ghost predicate SaneDay(d: DayReport)
  {
    && 0 <= d.demand
    && 0 <= d.soapAfter
    && (0 <= d.soapBefore ==>
          && 0 <= d.dries <= d.washes <= Min(d.demand, d.washers * d.maxCycles)
          && d.dries <= d.dryers * d.maxCycles
          && 0 <= d.soapAfter <= d.soapBefore)
  }

  datatype StepResult = StepResult(env: Env, obs: Observation, report: DayReport, pos: nat)

  /** Today's events from the tape (none if the day has no entry). */
  function TodaysEvents(e: Env, day: int): seq<string>
  {
    if day in e.eventTape then e.eventTape[day] else []
  }

  /** Whether the hyper-inflation check fires today. */
  predicate InflationDay(cfg: Settings, day: int)
    requires cfg.hyperInflation ==> cfg.inflationInterval != 0
  {
    cfg.hyperInflation && day % cfg.inflationInterval == 0
  }

  /** The tape lines themselves, logged before any event's own log. */
  function TapeLogs(events: seq<string>): (r: seq<Log>)
    ensures |r| == |events|
    ensures forall i :: 0 <= i < |events| ==> r[i] == TapeEvent(events[i])
  {
    seq(|events|, i requires 0 <= i < |events| => TapeEvent(events[i]))
  }

  /** The day's base demand from its first draw: 20 to 39 customers,
      tripled in a heatwave, then scaled by the scenario's multiplier and
      truncated. */
  function BaseDemand(cfg: Settings, u: real): (base: int)
    ensures var n := RandInt(u, 20, 40);
      20 <= n < 40 && base == Trunc((if cfg.heatwave then 3 * n else n) as real * cfg.baseDemandMult)
    ensures cfg.baseDemandMult == 1.0 && !cfg.heatwave ==> 20 <= base < 40
    ensures cfg.baseDemandMult == 1.0 && cfg.heatwave ==> 60 <= base < 120 && base % 3 == 0
  {
    var n := RandInt(u, 20, 40);
    var tripled := if cfg.heatwave then n * 3 else n;
    TruncOfInt(tripled);
    Trunc(tripled as real * cfg.baseDemandMult)
  }

  datatype Business = Business(report: DayReport, profit: real, balances: Balances, logs: seq<Log>)

  /** The business part of the simulated day, on the state after the
      events: the two demand draws (taken even during an outage, which then
      forces demand to zero), throughput against the working machines, soap,
      the day's profit and interest. */
  function DoBusiness(s: State, cfg: Settings, utility: real, outage: bool, src: Stream, pos: nat): (b: Business)
    requires "soap" in s.inventory && "wash" in s.pricing && "dry" in s.pricing
    ensures SaneDay(b.report)
    ensures var d := b.report;
      && (outage ==> d.demand == 0)
      && d.washers == CountWorking(s.machines, Washer) && d.dryers == CountWorking(s.machines, Dryer)
      && d.maxCycles == MaxCycles(cfg.waterRationing)
      && d.soapBefore == s.inventory["soap"]
      && (d.demand == 0 && 0 <= d.soapBefore ==> d.washes == 0 && d.dries == 0)
      && (d.washes == 0 && d.dries == 0 ==> b.profit == -(RentDaily * cfg.rentMult) - s.marketingSpend)
      && b.balances == ApplyInterest(s.cash + b.profit, s.debt, cfg.interestRate)
    ensures var d := b.report;
      && (!outage ==> d.demand == Demand(BaseDemand(cfg, src(pos)), s.pricing["wash"], s.pricing["dry"],
                                         s.satisfaction, RandInt(src(pos + 1), -5, 6), cfg))
      && (var l := RunLoads(d.demand, d.washers, d.dryers, d.maxCycles, d.soapBefore);
          d.washes == l.washes && d.dries == l.dries && d.lost == l.lost && d.soapAfter == l.soap)
      && b.profit == DailyProfit(d.washes, d.dries, s.pricing["wash"], s.pricing["dry"], utility,
                                 cfg.rentMult, s.marketingSpend)
  {
    var base := BaseDemand(cfg, src(pos));
    var flux := RandInt(src(pos + 1), -5, 6);
    var demand := if outage then 0 else Demand(base, s.pricing["wash"], s.pricing["dry"], s.satisfaction, flux, cfg);
    var washers := CountWorking(s.machines, Washer);
    var dryers := CountWorking(s.machines, Dryer);
    var maxCycles := MaxCycles(cfg.waterRationing);
    var soap := s.inventory["soap"];
    var loads := RunLoads(demand, washers, dryers, maxCycles, soap);
    var profit := DailyProfit(loads.washes, loads.dries, s.pricing["wash"], s.pricing["dry"], utility,
                              cfg.rentMult, s.marketingSpend);
    var logs := (if cfg.waterRationing then [RationingNotice] else []) + (if loads.ranOut then [SoapOut] else []);
    Business(DayReport(demand, washers, dryers, maxCycles, soap, loads.soap, loads.washes, loads.dries, loads.lost),
             profit, ApplyInterest(s.cash + profit, s.debt, cfg.interestRate), logs)
  }

  datatype Midday = Midday(tape: Tape, utility: real, logs: seq<Log>)

  /** The start of the simulated day: today's events, then the inflation
      check, which raises when hyper-inflation is on with an interval of zero
      (a division by zero in the source) and otherwise raises utilities by 10%
      on days divisible by the interval. */
  function Noon(e: Env, m: Morning): (r: Result<Midday, StepError>)
    requires "soap" in m.state.inventory
    ensures r.Failure? <==> e.config.hyperInflation && e.config.inflationInterval == 0
    ensures r.Failure? ==> r.error == ZeroInflationInterval
    ensures r.Success? ==>
      var t := r.value.tape;
      && t == ApplyEvents(Tape(m.state, e.config, false, []), TodaysEvents(e, m.state.day))
      && r.value.utility == (if InflationDay(t.config, m.state.day) then e.utilityCostMult * 1.10 else e.utilityCostMult)
  {
    var events := TodaysEvents(e, m.state.day);
    var tape := ApplyEvents(Tape(m.state, e.config, false, []), events);
    var cfg := tape.config;
    if cfg.hyperInflation && cfg.inflationInterval == 0 then Failure(ZeroInflationInterval)
    else
      var inflate := InflationDay(cfg, tape.state.day);
      var utility := if inflate then e.utilityCostMult * 1.10 else e.utilityCostMult;
      Success(Midday(tape, utility, TapeLogs(events) + tape.logs + (if inflate then [InflationSpike(utility)] else [])))
  }

  /** The rest of the day books what it computes: the report's counts are
      the working machines, its demand is the demand formula on the two
      draws (zero during an outage), its loads are the throughput of that
      demand, the profit is booked and interest charged on the balances, and
      satisfaction moves by the lost customers, the storefront's health and
      the marketing. */
  ghost predicate BooksDay(m: Morning, md: Midday, src: Stream, r: StepResult)
  {
    var s := md.tape.state;
    var s' := r.env.state;
    var d := r.report;
    var cfg := md.tape.config;
    && "wash" in s.pricing && "dry" in s.pricing && 0 < |s'.machines|
    && d.washers == CountWorking(s.machines, Washer) && d.dryers == CountWorking(s.machines, Dryer)
    && (!md.tape.outage ==> d.demand == Demand(BaseDemand(cfg, src(m.pos)), s.pricing["wash"], s.pricing["dry"],
                                               s.satisfaction, RandInt(src(m.pos + 1), -5, 6), cfg))
    && (var l := RunLoads(d.demand, d.washers, d.dryers, d.maxCycles, d.soapBefore);
        d.washes == l.washes && d.dries == l.dries && d.lost == l.lost && d.soapAfter == l.soap)
    && r.obs.summary.dailyProfit == DailyProfit(d.washes, d.dries, s.pricing["wash"], s.pricing["dry"],
                                                md.utility, cfg.rentMult, s.marketingSpend)
    && Balances(s'.cash, s'.debt) == ApplyInterest(s.cash + r.obs.summary.dailyProfit, s.debt, cfg.interestRate)
    && s'.satisfaction == NextSatisfaction(s.satisfaction, d.lost, s'.machines[0].health, s.marketingSpend)
  }

  /** The rest of the simulated day, on the state after the events:
      business, wear, satisfaction, the day counter and the observation.
      Draws: the base demand, the demand flux, then each working machine's
      degradation and log draws. */
  function Evening(e: Env, m: Morning, md: Midday, src: Stream): (r: StepResult)
    requires "soap" in md.tape.state.inventory && "wash" in md.tape.state.pricing && "dry" in md.tape.state.pricing
    requires 0 < |md.tape.state.machines|
    ensures var s := md.tape.state;
      var s' := r.env.state;
      var d := r.report;
      && s'.day == s.day + 1
      && 0.0 <= s'.satisfaction <= 100.0
      && |s'.machines| == |s.machines|
      && (forall i :: 0 <= i < |s'.machines| ==>
            && s'.machines[i].id == s.machines[i].id && s'.machines[i].kind == s.machines[i].kind
            && (s'.machines[i].status == Working ==> 0.0 < s'.machines[i].health))
      && s'.inventory.Keys == s.inventory.Keys
      && (forall k :: k in s.inventory && k != "soap" ==> s'.inventory[k] == s.inventory[k])
      && s'.pricing == s.pricing
      && s'.agentMemory == s.agentMemory && s'.marketingSpend == s.marketingSpend
      && r.env.pending == m.pending && r.env.config == md.tape.config && r.env.utilityCostMult == md.utility
      && r.env.eventTape == e.eventTape && r.env.soapLeadTime == e.soapLeadTime
      && m.pos + 2 <= r.pos <= m.pos + 2 + 3 * |s.machines|
      && r.pos == WearFleet(s.machines, d.washes, d.dries, d.washers, d.dryers,
                            md.tape.config.degradationMult, src, m.pos + 2).pos
      && s'.machines == WearFleet(s.machines, d.washes, d.dries, d.washers, d.dryers,
                                  md.tape.config.degradationMult, src, m.pos + 2).machines
      && SaneDay(d)
      && d.soapBefore == s.inventory["soap"]
      && s'.inventory["soap"] == d.soapAfter
      && (md.tape.outage ==> d.demand == 0)
      && d.maxCycles == MaxCycles(md.tape.config.waterRationing)
      && r.obs == Observe(s', r.obs.summary.dailyProfit)
      && (d.washes == 0 && d.dries == 0 ==>
            r.obs.summary.dailyProfit == -(RentDaily * md.tape.config.rentMult) - s'.marketingSpend)
  {
    var s6 := md.tape.state;
    var cfg := md.tape.config;
    var b := DoBusiness(s6, cfg, md.utility, md.tape.outage, src, m.pos);
    var fleet := WearFleet(s6.machines, b.report.washes, b.report.dries, b.report.washers, b.report.dryers,
                           cfg.degradationMult, src, m.pos + 2);
    var satisfaction := NextSatisfaction(s6.satisfaction, b.report.lost, fleet.machines[0].health,
                                         s6.marketingSpend);
    var s' := s6.(inventory := s6.inventory["soap" := b.report.soapAfter],
                  cash := b.balances.cash, debt := b.balances.debt,
                  machines := fleet.machines, satisfaction := satisfaction,
                  day := s6.day + 1, logHistory := m.logs + md.logs + b.logs + fleet.logs);
    StepResult(Env(cfg, s', m.pending, md.utility, e.soapLeadTime, e.eventTape),
               Observe(s', b.profit), b.report, fleet.pos)
  }

  /** A result that carries the business's report, profit and balances,
      and the satisfaction that follows from them, books the day. */
  lemma BusinessBooksDay(m: Morning, md: Midday, src: Stream, b: Business, r: StepResult)
    requires "soap" in md.tape.state.inventory && "wash" in md.tape.state.pricing && "dry" in md.tape.state.pricing
    requires b == DoBusiness(md.tape.state, md.tape.config, md.utility, md.tape.outage, src, m.pos)
    requires r.report == b.report && r.obs.summary.dailyProfit == b.profit
    requires Balances(r.env.state.cash, r.env.state.debt) == b.balances
    requires 0 < |r.env.state.machines|
    requires r.env.state.satisfaction == NextSatisfaction(md.tape.state.satisfaction, b.report.lost,
                                                          r.env.state.machines[0].health, md.tape.state.marketingSpend)
    ensures BooksDay(m, md, src, r)
  {}

  /** What the rest of the day books, stated on Evening itself. */
  lemma EveningBooksDay(e: Env, m: Morning, md: Midday, src: Stream)
    requires "soap" in md.tape.state.inventory && "wash" in md.tape.state.pricing && "dry" in md.tape.state.pricing
    requires 0 < |md.tape.state.machines|
    ensures BooksDay(m, md, src, Evening(e, m, md, src))
  {
    var s6 := md.tape.state;
    var b := DoBusiness(s6, md.tape.config, md.utility, md.tape.outage, src, m.pos);
    var r := Evening(e, m, md, src);
    assert r.report == b.report && r.obs.summary.dailyProfit == b.profit;
    assert Balances(r.env.state.cash, r.env.state.debt) == b.balances;
    BusinessBooksDay(m, md, src, b, r);
  }

  /** The whole simulated day, after the errands and the deliveries. */
  function Afternoon(e: Env, m: Morning, src: Stream): (r: Result<StepResult, StepError>)
    requires "soap" in m.state.inventory && "wash" in m.state.pricing && "dry" in m.state.pricing
    requires 0 < |m.state.machines|
    ensures r.Failure? <==> e.config.hyperInflation && e.config.inflationInterval == 0
    ensures r.Failure? ==> r.error == ZeroInflationInterval
    ensures r.Success? ==>
      var s' := r.value.env.state;
      var d := r.value.report;
      && s'.day == m.state.day + 1
      && 0.0 <= s'.satisfaction <= 100.0
      && |s'.machines| == |m.state.machines|
      && (forall i :: 0 <= i < |s'.machines| ==>
            && s'.machines[i].id == m.state.machines[i].id && s'.machines[i].kind == m.state.machines[i].kind
            && (s'.machines[i].status == Working ==> 0.0 < s'.machines[i].health))
      && s'.inventory.Keys == m.state.inventory.Keys
      && s'.pricing == m.state.pricing
      && r.value.env.pending == m.pending
      && m.pos + 2 <= r.value.pos
      && SaneDay(d)
      && s'.inventory["soap"] == d.soapAfter
      && (0 <= m.state.inventory["soap"] ==> 0 <= d.soapBefore)
      && (HasOutage(TodaysEvents(e, m.state.day)) ==> d.demand == 0)
      && r.value.obs == Observe(s', r.value.obs.summary.dailyProfit)
      && (d.washes == 0 && d.dries == 0 ==>
            r.value.obs.summary.dailyProfit == -(RentDaily * r.value.env.config.rentMult) - s'.marketingSpend)
  {
    match Noon(e, m)
    case Failure(err) => Failure(err)
    case Success(md) => Success(Evening(e, m, md, src))
  }

  /** One day. It raises when a pending order due today names an item the
      inventory does not count, or when hyper-inflation is on with an
      interval of zero; otherwise the day advances by exactly one,
      satisfaction ends in [0, 100], every machine still working has
      positive health, the roster keeps its ids and types, no delivered order
      stays queued, and at least the two demand draws are consumed. */
  function Step(e: Env, a: Action, src: Stream, pos: nat): (r: Result<StepResult, StepError>)
    requires Runnable(e)
    ensures r.Failure? <==>
      || (exists o :: o in e.pending && o.arrival <= e.state.day && o.item !in e.state.inventory)
      || (e.config.hyperInflation && e.config.inflationInterval == 0)
    ensures r.Failure? && r.error.UnknownItem? <==>
      exists o :: o in e.pending && o.arrival <= e.state.day && o.item !in e.state.inventory
    ensures r.Failure? && r.error.UnknownItem? ==>
      exists o :: o in e.pending && o.arrival <= e.state.day && o.item == r.error.item && o.item !in e.state.inventory
    ensures r.Success? ==>
      var e' := r.value.env;
      var d := r.value.report;
      && Runnable(e')
      && e'.state.day == e.state.day + 1
      && 0.0 <= e'.state.satisfaction <= 100.0
      && SameRoster(e.state.machines, e'.state.machines)
      && (forall i :: 0 <= i < |e'.state.machines| ==>
            e'.state.machines[i].status == Working ==> 0.0 < e'.state.machines[i].health)
      && (forall o :: o in e'.pending ==> e.state.day < o.arrival)
      && pos + 2 <= r.value.pos
      && SaneDay(d)
      && e'.state.inventory["soap"] == d.soapAfter
      && r.value.obs == Observe(e'.state, r.value.obs.summary.dailyProfit)
  {
    match Prepare(e, a, src, pos)
    case Failure(err) => Failure(err)
    case Success(m) =>
      var r := Afternoon(e, m, src);
      assert r.Success? ==> SameRoster(e.state.machines, r.value.env.state.machines);
      r
  }

  /** The step keeps the running invariant. */
  lemma StepPreservesWellFormed(e: Env, a: Action, src: Stream, pos: nat)
    requires WellFormed(e)
    ensures Step(e, a, src, pos).Success? ==> WellFormed(Step(e, a, src, pos).value.env)
  {
    var r := Step(e, a, src, pos);
    if r.Success? {
      var ms := e.state.machines;
      var ms' := r.value.env.state.machines;
      assert SameRoster(ms, ms');
      forall i | 0 <= i < RosterSize
        ensures ms'[i].id == i + 1 && ms'[i].kind == KindOf(i + 1)
      {
        assert ms[i].id == ms'[i].id && ms[i].kind == ms'[i].kind;
      }
    }
  }

  /** On a day with a power outage (and a soap count that is not
      negative) nobody is served: no wash, no dry, and the day's profit is
      minus the rent and the marketing spend. */
  lemma OutageServesNoOne(e: Env, m: Morning, src: Stream)
    requires "soap" in m.state.inventory && "wash" in m.state.pricing && "dry" in m.state.pricing
    requires 0 < |m.state.machines| && 0 <= m.state.inventory["soap"]
    requires HasOutage(TodaysEvents(e, m.state.day))
    requires !(e.config.hyperInflation && e.config.inflationInterval == 0)
    ensures Afternoon(e, m, src).Success?
    ensures var r := Afternoon(e, m, src).value;
      r.report.washes == 0 && r.report.dries == 0
      && r.obs.summary.dailyProfit == -(RentDaily * r.env.config.rentMult) - r.env.state.marketingSpend
  {
    var r := Afternoon(e, m, src).value;
    assert r.report.washes <= Min(r.report.demand, r.report.washers * r.report.maxCycles);
  }

  /** The empty action changes nothing before the deliveries: no cash moves,
      no machine changes, no order is placed, no draw is taken, nothing is
      logged. */
  lemma EmptyActionIsQuiet(e: Env, src: Stream, pos: nat)
    requires Runnable(e)
    ensures Errands(e, EmptyAction, src, pos) == Morning(e.state, e.pending, [], pos)
  {
  }

  /** The step is its stages: it succeeds exactly when the morning and the
      start of the simulated day both succeed, and then it is the rest of
      the day on their results. */
  lemma StepIsStages(e: Env, a: Action, src: Stream, pos: nat)
    requires Runnable(e)
    ensures var r := Step(e, a, src, pos);
      var p := Prepare(e, a, src, pos);
      && (r.Success? <==> p.Success? && Noon(e, p.value).Success?)
      && (r.Success? ==> r.value == Evening(e, p.value, Noon(e, p.value).value, src))
  {
  }
}

=== FILE: events.dfy ===
/** The scenario's scripted event tape, processed first in the simulated
    day. Each event string is matched by substring against a fixed vocabulary, first match wins, and a
    string that matches nothing has no effect. */
module Events {
  import opened Basics
  import opened Config
  import opened Models

  datatype EventKind =
    | RentHike | FactoryRecall | CompetitorOpened | HealthInspector
    | LoanShark | PowerOutage | Scammer | Theft | Unrecognized

  /** The recognised kinds in the order they are tried. */
  const Vocabulary: seq<EventKind> :=
    [RentHike, FactoryRecall, CompetitorOpened, HealthInspector, LoanShark, PowerOutage, Scammer, Theft]

  /** The phrase that marks each kind. */
  function Keyword(k: EventKind): string
  {
    match k
    case RentHike => "Rent Hike"
    case FactoryRecall => "FACTORY RECALL"
    case CompetitorOpened => "Competitor"
    case HealthInspector => "Health Inspector"
    case LoanShark => "Loan Shark"
    case PowerOutage => "Power Outage"
    case Scammer => "Scammer"
    case Theft => "Theft"
    case Unrecognized => ""
  }

  /** Position of a kind in the vocabulary (8 for `Unrecognized`). */
  function Rank(k: EventKind): nat
  {
    match k
    case RentHike => 0
    case FactoryRecall => 1
    case CompetitorOpened => 2
    case HealthInspector => 3
    case LoanShark => 4
    case PowerOutage => 5
    case Scammer => 6
    case Theft => 7
    case Unrecognized => 8
  }

  /** The kind of an event string: the first vocabulary phrase it contains. */
  function Classify(e: string): (k: EventKind)
    ensures k != Unrecognized ==> Contains(e, Keyword(k)) && Vocabulary[Rank(k)] == k
    ensures forall j :: 0 <= j < Rank(k) && j < |Vocabulary| ==> !Contains(e, Keyword(Vocabulary[j]))
    ensures k == Unrecognized <==> forall j :: 0 <= j < |Vocabulary| ==> !Contains(e, Keyword(Vocabulary[j]))
  {
    if Contains(e, "Rent Hike") then RentHike
    else if Contains(e, "FACTORY RECALL") then FactoryRecall
    else if Contains(e, "Competitor") then CompetitorOpened
    else if Contains(e, "Health Inspector") then HealthInspector
    else if Contains(e, "Loan Shark") then LoanShark
    else if Contains(e, "Power Outage") then PowerOutage
    else if Contains(e, "Scammer") then Scammer
    else if Contains(e, "Theft") then Theft
    else Unrecognized
  }

  /** Every machine broken at zero health, ids and types kept. */
  function RecallAll(ms: seq<Machine>): (r: seq<Machine>)
    ensures |r| == |ms|
    ensures forall i :: 0 <= i < |ms| ==> r[i] == ms[i].(status := Broken, health := 0.0)
  {
    seq(|ms|, i requires 0 <= i < |ms| => ms[i].(status := Broken, health := 0.0))
  }

  datatype Tape = Tape(state: State, config: Settings, outage: bool, logs: seq<Log>)

  /** Whether today's inspector fines: satisfaction below 90. */
  predicate InspectorFines(s: State)
  {
    s.satisfaction < 90.0
  }

  /** The effect of one event of a known kind. */
  function ApplyKind(t: Tape, k: EventKind): (r: Tape)
    requires "soap" in t.state.inventory
    ensures "soap" in r.state.inventory && r.state.inventory.Keys == t.state.inventory.Keys
    ensures r.state == t.state.(cash := r.state.cash, inventory := r.state.inventory, machines := r.state.machines)
    ensures r.state.cash <= t.state.cash
    ensures |r.state.machines| == |t.state.machines|
    ensures forall i :: 0 <= i < |t.state.machines| ==>
      r.state.machines[i].id == t.state.machines[i].id && r.state.machines[i].kind == t.state.machines[i].kind
    ensures 0 <= t.state.inventory["soap"] ==> 0 <= r.state.inventory["soap"] <= t.state.inventory["soap"]
    ensures r.outage <==> t.outage || k == PowerOutage
    ensures r.config.hyperInflation == t.config.hyperInflation && r.config.inflationInterval == t.config.inflationInterval
    ensures match k
      case RentHike => r == t.(config := t.config.(rentMult := t.config.rentMult * 1.10))
      case FactoryRecall => r == t.(state := t.state.(machines := RecallAll(t.state.machines)))
      case CompetitorOpened => r == t.(config := t.config.(competitorActive := true))
      case HealthInspector =>
        if InspectorFines(t.state) then
          r == t.(state := t.state.(cash := t.state.cash - 500.0), logs := t.logs + [InspectionFine])
        else r == t
      case LoanShark => r == t.(state := t.state.(cash := t.state.cash - 500.0))
      case PowerOutage => r == t.(outage := true, logs := t.logs + [OutageNotice])
      case Scammer => r == t.(state := t.state.(cash := t.state.cash - 200.0))
      case Theft =>
        r == t.(state := t.state.(inventory := t.state.inventory["soap" := Trunc(t.state.inventory["soap"] as real * 0.5)]))
      case Unrecognized => r == t
  {
    var s := t.state;
    match k
    case RentHike => t.(config := t.config.(rentMult := t.config.rentMult * 1.10))
    case FactoryRecall => t.(state := s.(machines := RecallAll(s.machines)))
    case CompetitorOpened => t.(config := t.config.(competitorActive := true))
    case HealthInspector =>
      if s.satisfaction < 90.0 then t.(state := s.(cash := s.cash - 500.0), logs := t.logs + [InspectionFine])
      else t
    case LoanShark => t.(state := s.(cash := s.cash - 500.0))
    case PowerOutage => t.(outage := true, logs := t.logs + [OutageNotice])
    case Scammer => t.(state := s.(cash := s.cash - 200.0))
    case Theft => t.(state := s.(inventory := s.inventory["soap" := Trunc(s.inventory["soap"] as real * 0.5)]))
    case Unrecognized => t
  }

  /** Is some event of the list an outage? */
  predicate HasOutage(events: seq<string>)
  {
    exists i :: 0 <= i < |events| && Classify(events[i]) == PowerOutage
  }

  /** The day's events in order. Events never change the day, the pricing,
      satisfaction, marketing, memory, the machines' ids and types or the
      inventory's keys; they never add cash; theft never makes soap negative;
      the outage flag is set exactly when some event is an outage. */
  function ApplyEvents(t: Tape, events: seq<string>): (r: Tape)
    requires "soap" in t.state.inventory
    ensures "soap" in r.state.inventory && r.state.inventory.Keys == t.state.inventory.Keys
    ensures r.state == t.state.(cash := r.state.cash, inventory := r.state.inventory, machines := r.state.machines)
    ensures r.state.cash <= t.state.cash
    ensures |r.state.machines| == |t.state.machines|
    ensures forall i :: 0 <= i < |t.state.machines| ==>
      r.state.machines[i].id == t.state.machines[i].id && r.state.machines[i].kind == t.state.machines[i].kind
    ensures 0 <= t.state.inventory["soap"] ==> 0 <= r.state.inventory["soap"] <= t.state.inventory["soap"]
    ensures r.outage <==> t.outage || HasOutage(events)
    ensures r.config.hyperInflation == t.config.hyperInflation && r.config.inflationInterval == t.config.inflationInterval
    decreases |events|
  {
    if events == [] then t
    else
      var t1 := ApplyKind(t, Classify(events[0]));
      var r := ApplyEvents(t1, events[1..]);
      assert HasOutage(events) <==> Classify(events[0]) == PowerOutage || HasOutage(events[1..]) by {
        assert forall i :: 1 <= i < |events| ==> events[i] == events[1..][i - 1];
        if HasOutage(events[1..]) {
          var i :| 0 <= i < |events[1..]| && Classify(events[1..][i]) == PowerOutage;
          assert Classify(events[i + 1]) == PowerOutage;
        }
      }
      r
  }

  /** A string that matches no phrase leaves everything as it was. */
  lemma UnrecognizedIsIgnored(t: Tape, e: string)
    requires "soap" in t.state.inventory
    requires forall j :: 0 <= j < |Vocabulary| ==> !Contains(e, Keyword(Vocabulary[j]))
    ensures ApplyKind(t, Classify(e)) == t
  {
  }

  /** A recall leaves every machine broken at zero health. */
  lemma RecallBreaksEverything(t: Tape, e: string)
    requires "soap" in t.state.inventory
    requires Classify(e) == FactoryRecall
    ensures forall i :: 0 <= i < |ApplyKind(t, Classify(e)).state.machines| ==>
      ApplyKind(t, Classify(e)).state.machines[i].status == Broken && ApplyKind(t, Classify(e)).state.machines[i].health == 0.0
  {
  }

  /** Theft leaves half the soap, rounded down. */
  lemma TheftHalvesSoap(t: Tape, e: string)
    requires "soap" in t.state.inventory && 0 <= t.state.inventory["soap"]
    requires Classify(e) == Theft
    ensures ApplyKind(t, Classify(e)).state.inventory["soap"] == t.state.inventory["soap"] / 2
  {
    var n := t.state.inventory["soap"];
    var k := n / 2;
    assert n == 2 * k || n == 2 * k + 1;
    assert k as real <= n as real * 0.5 < k as real + 1.0;
  }
}

=== FILE: finance.dfy ===
/** The money and mood parts of a day: the action's overwrites, the debt
    payment, the day's profit, interest, and the satisfaction update. */
module Finance {
  import opened Basics
  import opened Config
  import opened Models

  /** The configuration and memory updates: the action's pricing change
      is merged in, a non-empty memory string replaces the memory, and a
      given marketing budget replaces the old one. Nothing else changes. */
  function ApplyUpdates(s: State, a: Action): (r: State)
    ensures r.pricing.Keys == s.pricing.Keys + a.pricingChange.Keys
    ensures forall k :: k in a.pricingChange ==> r.pricing[k] == a.pricingChange[k]
    ensures forall k :: k in s.pricing && k !in a.pricingChange ==> r.pricing[k] == s.pricing[k]
    ensures a.updateMemory != "" ==> r.agentMemory == a.updateMemory
    ensures a.updateMemory == "" ==> r.agentMemory == s.agentMemory
    ensures a.marketingChange.Some? ==> r.marketingSpend == a.marketingChange.value
    ensures a.marketingChange.None? ==> r.marketingSpend == s.marketingSpend
    ensures r == s.(pricing := r.pricing, agentMemory := r.agentMemory, marketingSpend := r.marketingSpend)
  {
    s.(pricing := s.pricing + a.pricingChange,
       agentMemory := if a.updateMemory != "" then a.updateMemory else s.agentMemory,
       marketingSpend := match a.marketingChange
                         case Some(v) => v
                         case None => s.marketingSpend)
  }

  datatype Payment = Payment(state: State, logs: seq<Log>)

  /** The debt payment: a positive payment the cash covers moves that much
      from cash to debt (debt stops at zero, so an excess is simply lost); a
      positive payment it does not cover is declined with a log line; a payment of zero or less does nothing. */
  function PayDebt(s: State, pay: real): (r: Payment)
    ensures 0.0 < pay <= s.cash ==>
      && r.state == s.(cash := r.state.cash, debt := r.state.debt)
      && r.state.cash == s.cash - pay
      && r.state.debt == MaxReal(0.0, s.debt - pay)
      && r.logs == [DebtPaid(pay)]
    ensures s.cash < pay && 0.0 < pay ==> r.state == s && r.logs == [DebtDeclined]
    ensures pay <= 0.0 ==> r.state == s && r.logs == []
    ensures 0.0 <= r.state.debt || r.state.debt == s.debt
    // Paying never raises cash minus debt, and keeps it when the payment
    // does not exceed the debt; paying more than is owed loses the excess.
    ensures r.state.cash - r.state.debt <= s.cash - s.debt
    ensures pay <= s.debt ==> r.state.cash - r.state.debt == s.cash - s.debt
  {
    if 0.0 < pay then
      if pay <= s.cash then
        Payment(s.(cash := s.cash - pay, debt := MaxReal(0.0, s.debt - pay)), [DebtPaid(pay)])
      else
        Payment(s, [DebtDeclined])
    else
      Payment(s, [])
  }

  /** Income from the day's loads less utilities, rent and marketing. */
  function DailyProfit(washes: int, dries: int, wash: real, dry: real, utilityMult: real,
                       rentMult: real, marketing: real): (p: real)
    ensures washes == 0 && dries == 0 ==> p == -(RentDaily * rentMult) - marketing
    ensures 0 <= washes && 0 <= dries && CostUtilityPerLoad * utilityMult <= wash
            && CostUtilityPerLoad * utilityMult <= dry ==>
              -(RentDaily * rentMult) - marketing <= p
  {
    var income := washes as real * wash + dries as real * dry;
    var utility := (washes + dries) as real * CostUtilityPerLoad * utilityMult;
    assert income - utility == washes as real * (wash - CostUtilityPerLoad * utilityMult)
                             + dries as real * (dry - CostUtilityPerLoad * utilityMult);
    income - utility - RentDaily * rentMult - marketing
  }

  /** One more wash earns the wash price less one load's utilities. */
  lemma WashMargin(washes: int, dries: int, wash: real, dry: real, utilityMult: real,
                   rentMult: real, marketing: real)
    ensures DailyProfit(washes + 1, dries, wash, dry, utilityMult, rentMult, marketing)
          - DailyProfit(washes, dries, wash, dry, utilityMult, rentMult, marketing)
         == wash - CostUtilityPerLoad * utilityMult
  {
    assert (washes + 1) as real * wash == washes as real * wash + wash;
    assert (washes + 1 + dries) as real * CostUtilityPerLoad * utilityMult
        == (washes + dries) as real * CostUtilityPerLoad * utilityMult + CostUtilityPerLoad * utilityMult;
  }

  /** One more dry earns the dry price less one load's utilities. */
  lemma DryMargin(washes: int, dries: int, wash: real, dry: real, utilityMult: real,
                  rentMult: real, marketing: real)
    ensures DailyProfit(washes, dries + 1, wash, dry, utilityMult, rentMult, marketing)
          - DailyProfit(washes, dries, wash, dry, utilityMult, rentMult, marketing)
         == dry - CostUtilityPerLoad * utilityMult
  {
    assert (dries + 1) as real * dry == dries as real * dry + dry;
    assert (washes + dries + 1) as real * CostUtilityPerLoad * utilityMult
        == (washes + dries) as real * CostUtilityPerLoad * utilityMult + CostUtilityPerLoad * utilityMult;
  }

  datatype Balances = Balances(cash: real, debt: real)

  /** Positive debt accrues the daily rate; negative cash (an overdraft)
      is charged twice the rate. */
  function ApplyInterest(cash: real, debt: real, rate: real): (r: Balances)
    ensures 0.0 < debt ==> r.debt == debt * (1.0 + rate)
    ensures debt <= 0.0 ==> r.debt == debt
    ensures cash < 0.0 ==> r.cash == cash * (1.0 + 2.0 * rate)
    ensures 0.0 <= cash ==> r.cash == cash
    ensures 0.0 <= rate ==> r.cash <= cash && debt <= r.debt
    ensures 0.0 <= rate ==> (r.cash < 0.0 <==> cash < 0.0)
  {
    var debt' := if 0.0 < debt then debt + debt * rate else debt;
    var cash' := if cash < 0.0 then cash - (-cash) * (rate * 2.0) else cash;
    assert cash < 0.0 && 0.0 <= rate ==> cash * (1.0 + 2.0 * rate) <= cash;
    Balances(cash', debt')
  }

  /** The change in satisfaction before clamping: half a point per lost
      customer, a point when the storefront machine (the first) is below half
      health, and a tenth of the marketing spend. */
  function SatisfactionChange(lost: int, storefrontHealth: real, marketing: real): real
  {
    (if 0 < lost then -(lost as real * 0.5) else 0.0)
    + (if storefrontHealth < 0.5 then -1.0 else 0.0)
    + marketing / 10.0
  }

  /** The new satisfaction, always in [0, 100]. */
  function NextSatisfaction(satisfaction: real, lost: int, storefrontHealth: real, marketing: real): (r: real)
    ensures 0.0 <= r <= 100.0
    ensures var raw := satisfaction + SatisfactionChange(lost, storefrontHealth, marketing);
            0.0 <= raw <= 100.0 ==> r == raw
  {
    Clamp(satisfaction + SatisfactionChange(lost, storefrontHealth, marketing), 0.0, 100.0)
  }

  /** More lost customers never make customers happier. */
  lemma SatisfactionMonotoneInLost(satisfaction: real, lost1: int, lost2: int, storefrontHealth: real,
                                   marketing: real)
    requires lost1 <= lost2
    ensures NextSatisfaction(satisfaction, lost2, storefrontHealth, marketing)
         <= NextSatisfaction(satisfaction, lost1, storefrontHealth, marketing)
  {
    assert SatisfactionChange(lost2, storefrontHealth, marketing)
        <= SatisfactionChange(lost1, storefrontHealth, marketing);
  }
}

=== FILE: maintenance.dfy ===
/** The agent's maintenance operations, each charged once whatever its
    outcome. */
module Maintenance {
  import opened Basics
  import opened Config
  import opened Models
  import opened Random

  /** The position of the first machine with the given id. */
  function FindMachine(ms: seq<Machine>, id: int): (r: Option<nat>)
    ensures r.Some? ==> r.value < |ms| && ms[r.value].id == id
    ensures r.Some? ==> forall j :: 0 <= j < r.value ==> ms[j].id != id
    ensures r.None? <==> forall j :: 0 <= j < |ms| ==> ms[j].id != id
  {
    if ms == [] then None
    else if ms[0].id == id then Some(0)
    else
      match FindMachine(ms[1..], id)
      case None =>
        assert forall j :: 1 <= j < |ms| ==> ms[j] == ms[1..][j - 1];
        None
      case Some(j) =>
        assert forall k :: 1 <= k <= j ==> ms[k] == ms[1..][k - 1];
        Some(j + 1)
  }

  /** Same length, and the same id and type at every position. */
  ghost predicate SameRoster(ms1: seq<Machine>, ms2: seq<Machine>)
  {
    && |ms1| == |ms2|
    && forall i :: 0 <= i < |ms1| ==> ms1[i].id == ms2[i].id && ms1[i].kind == ms2[i].kind
  }

  lemma {:induction false} FindMachineRoster(ms1: seq<Machine>, ms2: seq<Machine>, id: int)
    requires SameRoster(ms1, ms2)
    ensures FindMachine(ms1, id) == FindMachine(ms2, id)
  {
    if ms1 != [] {
      assert SameRoster(ms1[1..], ms2[1..]) by {
        forall i | 0 <= i < |ms1| - 1
          ensures ms1[1..][i].id == ms2[1..][i].id && ms1[1..][i].kind == ms2[1..][i].kind
        {
          assert ms1[1..][i] == ms1[i + 1] && ms2[1..][i] == ms2[i + 1];
        }
      }
      FindMachineRoster(ms1[1..], ms2[1..], id);
    }
  }

  /** What an operation costs. An inspection's fee of 10 is set but never
      deducted, so it costs nothing. */
  function OpCost(action: OpKind, kind: MachineType, cfg: Settings): real
  {
    match action
    case Inspect => 0.0
    case RepairCheap => CostRepairCheap * cfg.repairCostMult
    case RepairPremium => CostRepairPremium * cfg.repairCostMult
    case Replace => BaseCost(kind)
  }

  /** Draws an operation takes: one per cheap repair in the grifter scenario. */
  function OpDraws(action: OpKind, cfg: Settings): nat
  {
    if action == RepairCheap && cfg.grifterRepairs then 1 else 0
  }

  /** A cheap repair fails only in the grifter scenario, when the draw falls
      below the grift probability. */
  predicate CheapRepairSucceeds(cfg: Settings, src: Stream, pos: nat)
  {
    !(cfg.grifterRepairs && src(pos) < cfg.griftProb)
  }

  function OpLog(action: OpKind, m: Machine, succeeded: bool): Log
  {
    match action
    case Inspect => Inspected(m.id, m.health)
    case RepairCheap => if succeeded then CheapRepairDone(m.id) else CheapRepairFailed(m.id)
    case RepairPremium => PremiumRepairDone(m.id)
    case Replace => MachineReplaced(m.id)
  }

  datatype Serviced = Serviced(state: State, logs: seq<Log>, pos: nat)

  /** One operation. An unknown id is skipped: no charge, no log, no draw.
      On a known machine the cost is deducted exactly once and only that
      machine changes. */
  function ApplyOp(s: State, op: MaintenanceOp, cfg: Settings, src: Stream, pos: nat): (r: Serviced)
    ensures FindMachine(s.machines, op.machineId).None? ==> r == Serviced(s, [], pos)
    ensures |r.state.machines| == |s.machines|
    ensures FindMachine(s.machines, op.machineId).Some? ==>
      var i := FindMachine(s.machines, op.machineId).value;
      var m := s.machines[i];
      var m' := r.state.machines[i];
      && r.state == s.(cash := s.cash - OpCost(op.action, m.kind, cfg), machines := s.machines[i := m'])
      && m'.id == m.id && m'.kind == m.kind && m'.efficiency == m.efficiency
      && r.pos == pos + OpDraws(op.action, cfg)
      && |r.logs| == 1
      && (op.action == Inspect ==> m' == m)
      && (op.action == RepairCheap && CheapRepairSucceeds(cfg, src, pos) ==>
            m' == m.(status := Working, health := MinReal(1.0, m.health + 0.3)))
      && (op.action == RepairCheap && !CheapRepairSucceeds(cfg, src, pos) ==> m' == m)
      && (op.action == RepairPremium ==> m' == m.(status := Working, health := 1.0))
      && (op.action == Replace ==> m' == m.(status := Working, health := 1.0, ageCycles := 0))
  {
    match FindMachine(s.machines, op.machineId)
    case None => Serviced(s, [], pos)
    case Some(i) =>
      var m := s.machines[i];
      var ok := op.action != RepairCheap || CheapRepairSucceeds(cfg, src, pos);
      var m' := match op.action
                case Inspect => m
                case RepairCheap => if ok then m.(status := Working, health := MinReal(1.0, m.health + 0.3)) else m
                case RepairPremium => m.(status := Working, health := 1.0)
                case Replace => m.(ageCycles := 0, health := 1.0, status := Working);
      Serviced(s.(cash := s.cash - OpCost(op.action, m.kind, cfg), machines := s.machines[i := m']),
               [OpLog(op.action, m, ok)],
               pos + OpDraws(op.action, cfg))
  }

  /** Total charge for a list of operations against a roster. */
  function OpsCost(ms: seq<Machine>, ops: seq<MaintenanceOp>, cfg: Settings): real
  {
    if ops == [] then 0.0
    else
      (match FindMachine(ms, ops[0].machineId)
       case None => 0.0
       case Some(i) => OpCost(ops[0].action, ms[i].kind, cfg))
      + OpsCost(ms, ops[1..], cfg)
  }

  /** Total draws a list of operations takes against a roster. */
  function OpsDraws(ms: seq<Machine>, ops: seq<MaintenanceOp>, cfg: Settings): nat
  {
    if ops == [] then 0
    else
      (if FindMachine(ms, ops[0].machineId).Some? then OpDraws(ops[0].action, cfg) else 0)
      + OpsDraws(ms, ops[1..], cfg)
  }

  lemma {:induction false} OpsTotalsRoster(ms1: seq<Machine>, ms2: seq<Machine>, ops: seq<MaintenanceOp>,
                                           cfg: Settings)
    requires SameRoster(ms1, ms2)
    ensures OpsCost(ms1, ops, cfg) == OpsCost(ms2, ops, cfg)
    ensures OpsDraws(ms1, ops, cfg) == OpsDraws(ms2, ops, cfg)
  {
    if ops != [] {
      FindMachineRoster(ms1, ms2, ops[0].machineId);
      OpsTotalsRoster(ms1, ms2, ops[1..], cfg);
    }
  }

  /** Does any operation name this id? */
  predicate Targets(ops: seq<MaintenanceOp>, id: int)
  {
    exists j :: 0 <= j < |ops| && ops[j].machineId == id
  }

  /** The operations in order. Cash falls by exactly the summed cost of the
      operations on known ids, whatever the repair outcomes; ids and types
      never change; a machine no operation names is untouched; only cash and
      machines change. */
  function ApplyOps(s: State, ops: seq<MaintenanceOp>, cfg: Settings, src: Stream, pos: nat): (r: Serviced)
    ensures SameRoster(s.machines, r.state.machines)
    ensures r.state == s.(cash := s.cash - OpsCost(s.machines, ops, cfg), machines := r.state.machines)
    ensures r.pos == pos + OpsDraws(s.machines, ops, cfg)
    ensures forall i :: 0 <= i < |s.machines| && !Targets(ops, s.machines[i].id) ==>
      r.state.machines[i] == s.machines[i]
    ensures forall i :: 0 <= i < |s.machines| ==> r.state.machines[i].efficiency == s.machines[i].efficiency
    ensures |ops| == 1 ==> r == ApplyOp(s, ops[0], cfg, src, pos)
    decreases |ops|
  {
    if ops == [] then Serviced(s, [], pos)
    else
      var first := ApplyOp(s, ops[0], cfg, src, pos);
      var rest := ApplyOps(first.state, ops[1..], cfg, src, first.pos);
      assert SameRoster(s.machines, first.state.machines);
      OpsTotalsRoster(s.machines, first.state.machines, ops[1..], cfg);
      assert forall i :: 0 <= i < |s.machines| && !Targets(ops, s.machines[i].id) ==>
        !Targets(ops[1..], s.machines[i].id) && ops[0].machineId != s.machines[i].id by {
        forall i | 0 <= i < |s.machines| && !Targets(ops, s.machines[i].id)
          ensures !Targets(ops[1..], s.machines[i].id) && ops[0].machineId != s.machines[i].id
        {
          assert forall j :: 0 <= j < |ops| - 1 ==> ops[1..][j] == ops[j + 1];
        }
      }
      assert |ops| == 1 ==> rest == Serviced(first.state, [], first.pos) && first.logs + [] == first.logs;
      Serviced(rest.state, first.logs + rest.logs, rest.pos)
  }

  /** Running two lists of operations one after the other is running
      their concatenation: the second starts on the state and cursor the
      first leaves, and the logs follow one another. */
  lemma {:induction false} ApplyOpsAppend(s: State, ops1: seq<MaintenanceOp>, ops2: seq<MaintenanceOp>,
                                          cfg: Settings, src: Stream, pos: nat)
    ensures var a := ApplyOps(s, ops1, cfg, src, pos);
      var b := ApplyOps(a.state, ops2, cfg, src, a.pos);
      ApplyOps(s, ops1 + ops2, cfg, src, pos) == Serviced(b.state, a.logs + b.logs, b.pos)
    decreases |ops1|
  {
    if ops1 == [] {
      assert ops1 + ops2 == ops2;
    } else {
      var first := ApplyOp(s, ops1[0], cfg, src, pos);
      assert (ops1 + ops2)[0] == ops1[0];
      assert (ops1 + ops2)[1..] == ops1[1..] + ops2;
      ApplyOpsAppend(first.state, ops1[1..], ops2, cfg, src, first.pos);
      var a := ApplyOps(first.state, ops1[1..], cfg, src, first.pos);
      var b := ApplyOps(a.state, ops2, cfg, src, a.pos);
      assert first.logs + (a.logs + b.logs) == (first.logs + a.logs) + b.logs;
    }
  }

  /** Splitting the operations at position k: the operations before it,
      then operation k, then the rest. */
  lemma ApplyOpsAt(s: State, ops: seq<MaintenanceOp>, cfg: Settings, src: Stream, pos: nat, k: nat)
    requires k < |ops|
    ensures var before := ApplyOps(s, ops[..k], cfg, src, pos);
      var mid := ApplyOp(before.state, ops[k], cfg, src, before.pos);
      ApplyOps(s, ops, cfg, src, pos).state == ApplyOps(mid.state, ops[k + 1..], cfg, src, mid.pos).state
  {
    var before := ApplyOps(s, ops[..k], cfg, src, pos);
    var after := ops[k + 1..];
    assert ops == ops[..k] + ([ops[k]] + after);
    ApplyOpsAppend(s, ops[..k], [ops[k]] + after, cfg, src, pos);
    ApplyOpsAppend(before.state, [ops[k]], after, cfg, src, before.pos);
  }

  /** The machine an operation names ends as the last operation naming it
      leaves it, applied to the machine as the earlier operations left it. */
  lemma LastOpWins(s: State, ops: seq<MaintenanceOp>, cfg: Settings, src: Stream, pos: nat, i: nat, k: nat)
    requires i < |s.machines| && FindMachine(s.machines, s.machines[i].id) == Some(i)
    requires k < |ops| && ops[k].machineId == s.machines[i].id
    requires forall j :: k < j < |ops| ==> ops[j].machineId != s.machines[i].id
    ensures var before := ApplyOps(s, ops[..k], cfg, src, pos);
      ApplyOps(s, ops, cfg, src, pos).state.machines[i]
        == ApplyOp(before.state, ops[k], cfg, src, before.pos).state.machines[i]
  {
    var before := ApplyOps(s, ops[..k], cfg, src, pos);
    var mid := ApplyOp(before.state, ops[k], cfg, src, before.pos);
    var after := ops[k + 1..];
    ApplyOpsAt(s, ops, cfg, src, pos, k);
    assert mid.state.machines[i].id == s.machines[i].id;
    assert !Targets(after, mid.state.machines[i].id) by {
      forall j | 0 <= j < |after| ensures after[j].machineId != mid.state.machines[i].id {
        assert after[j] == ops[k + 1 + j];
      }
    }
  }

  /** So a premium repair as the last word leaves the machine working at
      full health, and a replacement leaves it as new. */
  lemma LastOpDecides(s: State, ops: seq<MaintenanceOp>, cfg: Settings, src: Stream, pos: nat, i: nat, k: nat)
    requires i < |s.machines| && FindMachine(s.machines, s.machines[i].id) == Some(i)
    requires k < |ops| && ops[k].machineId == s.machines[i].id
    requires forall j :: k < j < |ops| ==> ops[j].machineId != s.machines[i].id
    ensures var m := s.machines[i];
      var m' := ApplyOps(s, ops, cfg, src, pos).state.machines[i];
      && (ops[k].action == RepairPremium ==>
            m'.id == m.id && m'.kind == m.kind && m'.efficiency == m.efficiency
            && m'.status == Working && m'.health == 1.0)
      && (ops[k].action == Replace ==> m' == m.(status := Working, health := 1.0, ageCycles := 0))
  {
    var before := ApplyOps(s, ops[..k], cfg, src, pos);
    LastOpWins(s, ops, cfg, src, pos, i, k);
    FindMachineRoster(s.machines, before.state.machines, s.machines[i].id);
    var m := before.state.machines[i];
    assert m.id == s.machines[i].id && m.kind == s.machines[i].kind && m.efficiency == s.machines[i].efficiency;
  }

  /** What the operations do to the machines, the draws they take and the
      logs they write depend on the machines alone, not on the rest of the
      state. */
  /** One operation's effect on the machines, its draws and its log
      depend on the machines alone. */
  lemma OpIgnoresRest(s1: State, s2: State, op: MaintenanceOp, cfg: Settings, src: Stream, pos: nat)
    requires s1.machines == s2.machines
    ensures var r1 := ApplyOp(s1, op, cfg, src, pos);
      var r2 := ApplyOp(s2, op, cfg, src, pos);
      r1.state.machines == r2.state.machines && r1.pos == r2.pos && r1.logs == r2.logs
  {
  }

  lemma {:induction false} OpsIgnoreRest(s1: State, s2: State, ops: seq<MaintenanceOp>, cfg: Settings,
                                         src: Stream, pos: nat)
    requires s1.machines == s2.machines
    ensures var r1 := ApplyOps(s1, ops, cfg, src, pos);
      var r2 := ApplyOps(s2, ops, cfg, src, pos);
      r1.state.machines == r2.state.machines && r1.pos == r2.pos && r1.logs == r2.logs
    decreases |ops|
  {
    if ops != [] {
      var f1 := ApplyOp(s1, ops[0], cfg, src, pos);
      var f2 := ApplyOp(s2, ops[0], cfg, src, pos);
      OpIgnoresRest(s1, s2, ops[0], cfg, src, pos);
      OpsIgnoreRest(f1.state, f2.state, ops[1..], cfg, src, f1.pos);
    }
  }

  /** The charge does not depend on the draws: two runs of the same
      operations against different streams leave the same cash. */
  lemma ChargeIgnoresOutcome(s: State, ops: seq<MaintenanceOp>, cfg: Settings,
                             src1: Stream, pos1: nat, src2: Stream, pos2: nat)
    ensures ApplyOps(s, ops, cfg, src1, pos1).state.cash == ApplyOps(s, ops, cfg, src2, pos2).state.cash
  {
  }
}

=== FILE: mechanics.dfy ===
/** The pure leaves of the day step: the bathtub-curve degradation, the
    vague symptom logs, and the demand formula. */
module Mechanics {
  import opened Basics
  import opened Config
  import opened Models
  import opened Random

  // ---------------------------------------------------------------------
  // Degradation
  // ---------------------------------------------------------------------

  /** Health lost per cycle outside a spike. */
  const BaseDegradation: real := 0.001

  /** Probability of a spike while the machine is young (age < 100) or in
      its reliable middle (100 <= age <= 2000). */
  function SpikeChance(age: int): real
  {
    if age < 100 then 0.05 else 0.0005
  }

  /** Per-cycle loss of a spike in the same two regimes. */
  function SpikeSize(age: int): real
  {
    if age < 100 then 0.05 else 0.10
  }

  /** Per-cycle loss in the wear-out regime (age > 2000): quadratic in the
      thousands of cycles past 2000. */
  function WearOut(age: int): real
  {
    var f := (age - 2000) as real / 1000.0;
    BaseDegradation * (1.0 + f * f)
  }

  /** Health to subtract per cycle from a machine of age `age` (already
      increased by today's cycles), and the advanced cursor. */
  function Degradation(age: int, mult: real, src: Stream, pos: nat): (r: (real, nat))
    // One draw in the first two regimes, none in wear-out.
    ensures r.1 == if age <= 2000 then pos + 1 else pos
    ensures age <= 2000 ==> r.0 == SpikeSize(age) * mult || r.0 == BaseDegradation * mult
    ensures age <= 2000 && mult != 0.0 ==> (r.0 == SpikeSize(age) * mult <==> src(pos) < SpikeChance(age))
    ensures 2000 < age ==> r.0 == WearOut(age) * mult
  {
    if age < 100 then
      (if src(pos) < 0.05 then 0.05 * mult else BaseDegradation * mult, pos + 1)
    else if age <= 2000 then
      (if src(pos) < 0.0005 then 0.10 * mult else BaseDegradation * mult, pos + 1)
    else
      (WearOut(age) * mult, pos)
  }

  /** Degradation never heals a machine when the multiplier is not negative,
      and before wear-out one cycle costs at most the larger spike. */
  lemma DegradationNonNegative(age: int, mult: real, src: Stream, pos: nat)
    requires 0.0 <= mult
    ensures 0.0 <= Degradation(age, mult, src, pos).0
    ensures age <= 2000 ==> Degradation(age, mult, src, pos).0 <= 0.10 * mult
  {
    var f := (age - 2000) as real / 1000.0;
    assert 0.0 <= f * f;
    assert 0.0 <= WearOut(age);
    MulNonNegative(WearOut(age), mult);
  }

  lemma MulNonNegative(a: real, b: real)
    requires 0.0 <= a && 0.0 <= b
    ensures 0.0 <= a * b
  {
  }

  lemma MulMonotone(a: real, b: real, c: real)
    requires a <= b && 0.0 <= c
    ensures a * c <= b * c
  {
    assert b * c - a * c == (b - a) * c;
    MulNonNegative(b - a, c);
  }

  /** Within wear-out an older machine never degrades more slowly. */
  lemma WearOutMonotone(age1: int, age2: int, mult: real, src: Stream, pos: nat)
    requires 2000 < age1 <= age2
    requires 0.0 <= mult
    ensures Degradation(age1, mult, src, pos).0 <= Degradation(age2, mult, src, pos).0
  {
    var f1 := (age1 - 2000) as real / 1000.0;
    var f2 := (age2 - 2000) as real / 1000.0;
    assert 0.0 <= f1 <= f2;
    MulMonotone(f1, f2, f1);
    MulMonotone(f1, f2, f2);
    assert f1 * f1 <= f2 * f2;
    assert WearOut(age1) <= WearOut(age2);
    MulMonotone(WearOut(age1), WearOut(age2), mult);
  }

  /** Age 2500 at multiplier 1 loses 0.001 * (1 + 0.5^2) per cycle, with no draw. */
  lemma WearOutExample(src: Stream, pos: nat)
    ensures Degradation(2500, 1.0, src, pos) == (0.00125, pos)
  {
    assert WearOut(2500) == 0.001 * (1.0 + 0.5 * 0.5);
  }

  // ---------------------------------------------------------------------
  // Symptom logs
  // ---------------------------------------------------------------------

  /** The symptom band for a machine still running at health `h`, if any. */
  function BandOf(h: real): Option<Band>
  {
    if h < 0.2 then Some(Severe)
    else if h < 0.4 then Some(Moderate)
    else if h < 0.6 then Some(Mild)
    else if h < 0.8 then Some(Minor)
    else None
  }

  /** 0 when no symptom can appear, up to 4 for the worst band. */
  function Alarm(h: real): nat
  {
    match BandOf(h)
    case None => 0
    case Some(Severe) => 4
    case Some(Moderate) => 3
    case Some(Mild) => 2
    case Some(Minor) => 1
  }

  function SymptomChance(b: Band): real
  {
    match b
    case Severe => 0.70
    case Moderate => 0.50
    case Mild => 0.25
    case Minor => 0.10
  }

  /** How many phrasings the source offers for the band. */
  function PhraseCount(b: Band): nat
  {
    match b
    case Severe => 4
    case Moderate => 3
    case Mild => 2
    case Minor => 1
  }

  /** A lower health never gives a milder band, and a more alarming band
      never gives a symptom less often. */
  lemma AlarmMonotone(h1: real, h2: real)
    requires h1 <= h2
    ensures Alarm(h2) <= Alarm(h1)
    ensures BandOf(h1).Some? && BandOf(h2).Some? ==>
      SymptomChance(BandOf(h2).value) <= SymptomChance(BandOf(h1).value)
  {
  }

  /** The draws the symptom logs take for a machine at health `h` whose
      first draw is `u`: none once it has stopped or while it shows no
      symptom band; otherwise the symptom draw, plus one to pick the phrasing
      when a symptom appears and the band offers more than one. */
  function LogDraws(h: real, u: real): nat
  {
    if h <= 0.0 then 0
    else match BandOf(h)
      case None => 0
      case Some(b) => if u < SymptomChance(b) && 1 < PhraseCount(b) then 2 else 1
  }

  datatype Symptoms = Symptoms(logs: seq<Log>, machine: Machine, pos: nat)

  /** The log lines for one machine after its degradation. At health <= 0
      the machine is reported stopped and marked broken; otherwise a symptom
      appears with the band's probability, its phrasing chosen by a second
      draw when the band has more than one. */
  function GenerateLogs(m: Machine, src: Stream, pos: nat): (r: Symptoms)
    ensures m.health <= 0.0 ==>
      r.logs == [Stopped(m.id)] && r.machine == m.(status := Broken) && r.pos == pos
    ensures 0.0 < m.health ==> r.machine == m && |r.logs| <= 1
    ensures 0.8 <= m.health ==> r.logs == [] && r.pos == pos
    ensures 0.0 < m.health && BandOf(m.health).Some? ==>
      r.pos == pos + (if src(pos) < SymptomChance(BandOf(m.health).value)
                         && 1 < PhraseCount(BandOf(m.health).value) then 2 else 1)
    ensures r.pos == pos + LogDraws(m.health, src(pos))
    ensures 0.0 < m.health && |r.logs| == 1 ==>
      && BandOf(m.health).Some?
      && r.logs[0].Symptom?
      && r.logs[0].machineId == m.id && r.logs[0].band == BandOf(m.health).value
      && r.logs[0].phrase < PhraseCount(BandOf(m.health).value)
      && src(pos) < SymptomChance(BandOf(m.health).value)
    ensures 0.0 < m.health && BandOf(m.health).Some? ==>
      (|r.logs| == 1 <==> src(pos) < SymptomChance(BandOf(m.health).value))
  {
    if m.health <= 0.0 then
      Symptoms([Stopped(m.id)], m.(status := Broken), pos)
    else
      match BandOf(m.health)
      case None => Symptoms([], m, pos)
      case Some(b) =>
        if src(pos) < SymptomChance(b) then
          if PhraseCount(b) == 1 then
            Symptoms([Symptom(m.id, b, 0)], m, pos + 1)
          else
            Symptoms([Symptom(m.id, b, RandInt(src(pos + 1), 0, PhraseCount(b)))], m, pos + 2)
        else
          Symptoms([], m, pos + 1)
  }

  // ---------------------------------------------------------------------
  // Demand
  // ---------------------------------------------------------------------

  /** Ten customers per unit of price above fair market, scaled by the
      scenario's sensitivity. */
  function PricePenalty(wash: real, dry: real, sensitivity: real): (p: real)
    ensures 0.0 <= sensitivity ==> 0.0 <= p
    ensures wash <= FairMarketWash && dry <= FairMarketDry ==> p == 0.0
    ensures 0.0 < sensitivity && (FairMarketWash < wash || FairMarketDry < dry) ==> 0.0 < p
  {
    var w := if FairMarketWash < wash then (wash - FairMarketWash) * 10.0 * sensitivity else 0.0;
    var d := if FairMarketDry < dry then (dry - FairMarketDry) * 10.0 * sensitivity else 0.0;
    w + d
  }

  /** 0.5 below 50 satisfaction; 0 under the strict gentrification rule
      below the threshold; 1 otherwise. */
  function SatisfactionModifier(satisfaction: real, cfg: Settings): (f: real)
    ensures f == 0.0 || f == 0.5 || f == 1.0
    ensures f == 0.5 <==> satisfaction < 50.0
    ensures f == 0.0 <==> 50.0 <= satisfaction < cfg.satisfactionThreshold && cfg.gentrificationStrict
  {
    if satisfaction < 50.0 then 0.5
    else if satisfaction < cfg.satisfactionThreshold && cfg.gentrificationStrict then 0.0
    else 1.0
  }

  /** Demand before the competitor's cut, possibly negative. */
  function RawDemand(base: int, wash: real, dry: real, satisfaction: real, flux: int, cfg: Settings): int
  {
    Trunc((base as real - PricePenalty(wash, dry, cfg.priceSensitivity) + flux as real)
          * SatisfactionModifier(satisfaction, cfg))
  }

  /** Customers arriving today. `flux` is the day's draw from [-5, 6). */
  function Demand(base: int, wash: real, dry: real, satisfaction: real, flux: int, cfg: Settings): (r: int)
    ensures 0 <= r
    ensures cfg.gentrificationStrict && 50.0 <= satisfaction < cfg.satisfactionThreshold ==> r == 0
    ensures !cfg.competitorActive && wash <= FairMarketWash && dry <= FairMarketDry && 50.0 <= satisfaction
            && !(cfg.gentrificationStrict && satisfaction < cfg.satisfactionThreshold) ==>
              r == Max(0, base + flux)
  {
    var d := RawDemand(base, wash, dry, satisfaction, flux, cfg);
    var cut := if cfg.competitorActive then Trunc(d as real * 0.70) else d;
    Max(0, cut)
  }

  /** The competitor takes 30%: demand with the competitor is the truncated
      70% of the same day's demand without it. */
  lemma CompetitorCutsDemand(base: int, wash: real, dry: real, satisfaction: real, flux: int, cfg: Settings)
    ensures Demand(base, wash, dry, satisfaction, flux, cfg.(competitorActive := true))
         == Trunc(Demand(base, wash, dry, satisfaction, flux, cfg.(competitorActive := false)) as real * 0.70)
  {
    var d := RawDemand(base, wash, dry, satisfaction, flux, cfg);
    assert RawDemand(base, wash, dry, satisfaction, flux, cfg.(competitorActive := true)) == d;
    assert RawDemand(base, wash, dry, satisfaction, flux, cfg.(competitorActive := false)) == d;
    if d < 0 {
      assert Trunc(d as real * 0.70) <= 0;
    }
  }

  /** With every draw fixed, raising a price never raises demand. */
  lemma {:induction false} DemandPriceMonotone(base: int, wash1: real, dry1: real, wash2: real, dry2: real,
                                               satisfaction: real, flux: int, cfg: Settings)
    requires wash1 <= wash2 && dry1 <= dry2
    requires 0.0 <= cfg.priceSensitivity
    ensures Demand(base, wash2, dry2, satisfaction, flux, cfg) <= Demand(base, wash1, dry1, satisfaction, flux, cfg)
  {
    var s := cfg.priceSensitivity;
    PenaltyMonotone(wash1, dry1, wash2, dry2, s);
    var m := SatisfactionModifier(satisfaction, cfg);
    var x1 := base as real - PricePenalty(wash1, dry1, s) + flux as real;
    var x2 := base as real - PricePenalty(wash2, dry2, s) + flux as real;
    assert x2 <= x1;
    MulMonotone(x2, x1, m);
    TruncMonotone(x2 * m, x1 * m);
    var d1 := RawDemand(base, wash1, dry1, satisfaction, flux, cfg);
    var d2 := RawDemand(base, wash2, dry2, satisfaction, flux, cfg);
    assert d2 <= d1;
    MulMonotone(d2 as real, d1 as real, 0.70);
    TruncMonotone(d2 as real * 0.70, d1 as real * 0.70);
  }

  lemma PenaltyMonotone(wash1: real, dry1: real, wash2: real, dry2: real, s: real)
    requires wash1 <= wash2 && dry1 <= dry2 && 0.0 <= s
    ensures PricePenalty(wash1, dry1, s) <= PricePenalty(wash2, dry2, s)
  {
    if FairMarketWash < wash1 {
      MulMonotone((wash1 - FairMarketWash) * 10.0, (wash2 - FairMarketWash) * 10.0, s);
    }
    if FairMarketDry < dry1 {
      MulMonotone((dry1 - FairMarketDry) * 10.0, (dry2 - FairMarketDry) * 10.0, s);
    }
  }

  /** Each unit the wash price rises above the fair price adds ten
      customers times the sensitivity to the penalty; rises at or below the
      fair price add nothing. */
  lemma PenaltyWashMargin(wash1: real, wash2: real, dry: real, s: real)
    ensures PricePenalty(wash2, dry, s) - PricePenalty(wash1, dry, s)
         == 10.0 * s * (MaxReal(wash2, FairMarketWash) - MaxReal(wash1, FairMarketWash))
  {
  }

  /** The same for the dry price. */
  lemma PenaltyDryMargin(wash: real, dry1: real, dry2: real, s: real)
    ensures PricePenalty(wash, dry2, s) - PricePenalty(wash, dry1, s)
         == 10.0 * s * (MaxReal(dry2, FairMarketDry) - MaxReal(dry1, FairMarketDry))
  {
  }

  /** Below 50 satisfaction demand is halved: without a competitor it is
      half (rounded down) of what a satisfied clientele would bring. */
  lemma {:induction false} LowSatisfactionHalvesDemand(base: int, wash: real, dry: real, low: real, high: real,
                                                       flux: int, cfg: Settings)
    requires low < 50.0 <= high
    requires !(cfg.gentrificationStrict && high < cfg.satisfactionThreshold)
    requires !cfg.competitorActive
    ensures Demand(base, wash, dry, low, flux, cfg) == Demand(base, wash, dry, high, flux, cfg) / 2
  {
    var x := base as real - PricePenalty(wash, dry, cfg.priceSensitivity) + flux as real;
    assert SatisfactionModifier(low, cfg) == 0.5;
    assert SatisfactionModifier(high, cfg) == 1.0;
    if 0.0 <= x {
      FloorHalf(x);
    } else {
      assert Trunc(x * 0.5) <= 0;
    }
  }

  /** Halving before or after flooring gives the same whole number. */
  lemma FloorHalf(x: real)
    requires 0.0 <= x
    ensures Trunc(x * 0.5) == Trunc(x) / 2
  {
    var n := Trunc(x);
    var k := n / 2;
    assert n == 2 * k || n == 2 * k + 1;
    assert k as real <= x * 0.5 < k as real + 1.0;
  }
}

=== FILE: models.dfy ===
/** The simulator's records: machines, the business state, maintenance
    operations, the agent's daily action, and the log lines a day emits.
    Log lines are tagged values rather than formatted text. */
module Models {
  import opened Basics
  import opened Config

  datatype MachineType = Washer | Dryer

  datatype Status = Working | Broken | Maintenance

  /** `health` is hidden from the agent; `efficiency` is carried but unused. */
  datatype Machine = Machine(
    id: int,
    kind: MachineType,
    status: Status,
    ageCycles: int,
    health: real,
    efficiency: real)

  /** A machine built with the record's defaults. */
  function NewMachine(id: int, kind: MachineType): (m: Machine)
    ensures m.id == id && m.kind == kind
    ensures m.status == Working && m.ageCycles == 0
    ensures m.health == 1.0 && m.efficiency == 1.0
  {
    Machine(id, kind, Working, 0, 1.0, 1.0)
  }

  /** Purchase price of a machine of the given type. */
  function BaseCost(kind: MachineType): real
  {
    match kind
    case Washer => CostWasher
    case Dryer => CostDryer
  }

  /** How alarming a symptom line is; `Severe` is the worst. */
  datatype Band = Severe | Moderate | Mild | Minor

  datatype Log =
    | DebtPaid(amount: real)
    | DebtDeclined
    | Ordered(item: string, qty: int, cost: real, arrival: int)
    | Inspected(machineId: int, health: real)
    | CheapRepairDone(machineId: int)
    | CheapRepairFailed(machineId: int)
    | PremiumRepairDone(machineId: int)
    | MachineReplaced(machineId: int)
    | Delivered(item: string, qty: int)
    | TapeEvent(text: string)
    | InspectionFine
    | OutageNotice
    | InflationSpike(utilityMult: real)
    | RationingNotice
    | SoapOut
    | Stopped(machineId: int)
    | Symptom(machineId: int, band: Band, phrase: nat)

  datatype State = State(
    day: int,
    cash: real,
    debt: real,
    inventory: map<string, int>,
    pricing: map<string, real>,
    marketingSpend: real,
    satisfaction: real,
    machines: seq<Machine>,
    logHistory: seq<Log>,
    agentMemory: string)

  /** A state built with the record's defaults for satisfaction, log
      history and memory. */
  function NewState(day: int, cash: real, debt: real, inventory: map<string, int>,
                    pricing: map<string, real>, marketingSpend: real,
                    machines: seq<Machine>): (s: State)
    ensures s.day == day && s.cash == cash && s.debt == debt
    ensures s.inventory == inventory && s.pricing == pricing
    ensures s.marketingSpend == marketingSpend && s.machines == machines
    ensures s.satisfaction == 100.0 && s.logHistory == [] && s.agentMemory == ""
  {
    State(day, cash, debt, inventory, pricing, marketingSpend, 100.0, machines, [], "")
  }

  datatype OpKind = Inspect | RepairCheap | RepairPremium | Replace

  datatype MaintenanceOp = MaintenanceOp(machineId: int, action: OpKind)

  /** One day's decisions. Python's optional fields whose absence and
      emptiness behave alike are plain values here: an empty pricing map, an
      empty purchase list and an empty memory string mean "not given".
      `marketingChange` stays optional since zero is a real overwrite.
      `inspections` is read only by the diagnostics; the declared action
      type has no such attribute (see `Diagnostics.RecordStepAsWritten`). */
  datatype Action = Action(
    pricingChange: map<string, real>,
    buyInventory: seq<(string, int)>,
    maintenanceOps: seq<MaintenanceOp>,
    inspections: seq<int>,
    marketingChange: Option<real>,
    payDebt: real,
    updateMemory: string)

  /** The all-defaults action. */
  const EmptyAction: Action := Action(map[], [], [], [], None, 0.0, "")

  /** The operations whose name contains "repair". */
  predicate IsRepair(k: OpKind)
  {
    k == RepairCheap || k == RepairPremium
  }
}

=== FILE: operations.dfy ===
/** The simulated day's capacity-limited throughput, soap consumption,
    and per-machine wear with its symptom logs. */
module Operations {
  import opened Basics
  import opened Config
  import opened Models
  import opened Random
  import opened Mechanics

  /** The roster positions holding a working machine of the type. */
  ghost function WorkingOf(ms: seq<Machine>, kind: MachineType): set<int>
  {
    set i | 0 <= i < |ms| && ms[i].kind == kind && ms[i].status == Working
  }

  /** Number of machines of a type that are working. */
  function CountWorking(ms: seq<Machine>, kind: MachineType): (n: nat)
    ensures n == |WorkingOf(ms, kind)|
    ensures n <= |ms|
  {
    if ms == [] then
      assert WorkingOf(ms, kind) == {};
      0
    else
      var head := ms[0].kind == kind && ms[0].status == Working;
      var tail := WorkingOf(ms[1..], kind);
      forall i | i in WorkingOf(ms, kind) ensures i in (if head then {0} else {}) + Shift(tail) {
        if i != 0 {
          assert ms[1..][i - 1] == ms[i];
          assert i - 1 in tail;
        }
      }
      forall i | i in (if head then {0} else {}) + Shift(tail) ensures i in WorkingOf(ms, kind) {
        if i != 0 {
          assert ms[1..][i - 1] == ms[i];
        }
      }
      PositionsCons(WorkingOf(ms, kind), tail, head, |ms| - 1);
      (if head then 1 else 0) + CountWorking(ms[1..], kind)
  }

  /** Cycles a machine can run in a day: halved (5) under water rationing. */
  function MaxCycles(rationing: bool): (c: nat)
    ensures c <= MaxCyclesPerDay
    ensures rationing ==> 2 * c == MaxCyclesPerDay
    ensures !rationing ==> c == MaxCyclesPerDay
  {
    if rationing then Trunc(MaxCyclesPerDay as real * 0.5) else MaxCyclesPerDay
  }

  datatype Loads = Loads(washes: int, dries: int, lost: int, soap: int, ranOut: bool)

  /** Washes are the demand up to the washers' capacity, dries the washes
      up to the dryers' capacity. A load needs a tenth of a soap unit: when
      the soap does not cover the washes, washes drop to what it covers,
      the soap is used up, and the customers this turns away are added to
      the lost ones a second time over the capacity shortfall (the source
      adds `demand - washes` again). Otherwise the soap falls by the whole
      units the washes use. */
  function RunLoads(demand: int, washers: nat, dryers: nat, maxCycles: nat, soap: int): (r: Loads)
    ensures r.ranOut <==> (soap as real) < (Min(demand, washers * maxCycles) as real) * SoapPerLoad
    ensures !r.ranOut ==>
      && r.washes == Min(demand, washers * maxCycles)
      && r.lost == demand - r.washes
      && (0 <= demand ==> r.soap == soap - r.washes / 10)
    ensures r.ranOut ==>
      && r.washes == 10 * soap
      && r.soap == 0
      && r.lost == (demand - Min(demand, washers * maxCycles)) + (demand - r.washes)
    ensures r.dries == Min(r.washes, dryers * maxCycles)
    ensures 0 <= demand ==> 0 <= r.soap
    ensures 0 <= demand && 0 <= soap ==>
      && 0 <= r.dries <= r.washes <= Min(demand, washers * maxCycles)
      && r.dries <= dryers * maxCycles
      && r.washes as real * SoapPerLoad <= soap as real
      && 0 <= r.soap <= soap
      && demand - r.washes <= r.lost
  {
    var maxWash := washers * maxCycles;
    var maxDry := dryers * maxCycles;
    var washes := Min(demand, maxWash);
    var dries := Min(washes, maxDry);
    var lost := demand - washes;
    var needed := washes as real * SoapPerLoad;
    if (soap as real) < needed then
      var washes' := Trunc(soap as real / SoapPerLoad);
      assert soap as real / SoapPerLoad == (10 * soap) as real;
      TruncOfInt(10 * soap);
      var dries' := Min(washes', dries);
      assert dries' == Min(washes', maxDry) by {
        assert washes' < washes;
      }
      Loads(washes', dries', lost + (demand - washes'), 0, true)
    else
      assert 0 <= washes ==> Trunc(needed) == washes / 10 by {
        if 0 <= washes {
          FloorTenth(washes);
        }
      }
      Loads(washes, dries, lost, soap - Trunc(needed), false)
  }

  lemma FloorTenth(n: int)
    requires 0 <= n
    ensures Trunc(n as real * SoapPerLoad) == n / 10
  {
    var k := n / 10;
    assert 10 * k <= n < 10 * k + 10;
    assert k as real <= n as real * 0.1 < k as real + 1.0;
  }

  /** On a soap shortage the lost-customer count exceeds the customers
      actually turned away by the capacity shortfall: 70 customers, 60 wash
      slots and 2 soap units serve 20, turn away 50, and count 60 lost. */
  lemma ShortageCountsOverflowTwice()
    ensures var r := RunLoads(70, 6, 4, 10, 2);
      r.washes == 20 && r.lost == 60 && 70 - r.washes == 50
  {
  }

  /** Cycles a working machine ran today: its type's loads split evenly
      (rounded down) over that type's working machines. */
  function Cycles(m: Machine, washes: int, dries: int, washers: nat, dryers: nat): (c: int)
    ensures m.kind == Washer && 0 < washers && 0 <= washes <= washers * MaxCyclesPerDay ==> 0 <= c <= MaxCyclesPerDay
    ensures m.kind == Dryer && 0 < dryers && 0 <= dries <= dryers * MaxCyclesPerDay ==> 0 <= c <= MaxCyclesPerDay
    ensures 0 <= washes && 0 <= dries ==> 0 <= c
    ensures m.kind == Washer && 0 < washers && 0 <= washes ==> c == washes / washers
    ensures m.kind == Dryer && 0 < dryers && 0 <= dries ==> c == dries / dryers
    ensures (m.kind == Washer && washers == 0) || (m.kind == Dryer && dryers == 0) ==> c == 0
  {
    if m.kind == Washer && 0 < washers then
      ShareBound(washes, washers, MaxCyclesPerDay);
      assert 0 <= washes ==> Trunc(washes as real / washers as real) == washes / washers by {
        if 0 <= washes {
          TruncDiv(washes, washers);
        }
      }
      Trunc(washes as real / washers as real)
    else if m.kind == Dryer && 0 < dryers then
      ShareBound(dries, dryers, MaxCyclesPerDay);
      assert 0 <= dries ==> Trunc(dries as real / dryers as real) == dries / dryers by {
        if 0 <= dries {
          TruncDiv(dries, dryers);
        }
      }
      Trunc(dries as real / dryers as real)
    else 0
  }

  /** An even split of at most `n * c` loads over `n` machines gives each
      at most `c`. */
  lemma ShareBound(loads: int, n: int, c: int)
    requires 0 < n
    ensures 0 <= loads ==> 0 <= Trunc(loads as real / n as real)
    ensures 0 <= loads <= n * c ==> Trunc(loads as real / n as real) <= c
  {
    var q := loads as real / n as real;
    assert q * n as real == loads as real;
    if 0 <= loads <= n * c {
      assert q <= c as real by {
        assert (n * c) as real / n as real == c as real;
      }
    }
  }

  datatype Worn = Worn(machine: Machine, logs: seq<Log>, pos: nat)

  /** One working machine's day: it ages by its cycles, loses the per-cycle
      degradation of its new age times the cycles, then its logs are drawn.
      A machine that is not working is left alone. */
  function WearMachine(m: Machine, cycles: int, mult: real, src: Stream, pos: nat): (r: Worn)
    ensures m.status != Working ==> r == Worn(m, [], pos)
    ensures m.status == Working ==>
      && r.machine.id == m.id && r.machine.kind == m.kind && r.machine.efficiency == m.efficiency
      && r.machine.ageCycles == m.ageCycles + cycles
      && r.machine.health == m.health - Degradation(m.ageCycles + cycles, mult, src, pos).0 * cycles as real
      && (r.machine.health <= 0.0 <==> r.machine.status == Broken)
      && (0.0 < r.machine.health ==> r.machine.status == Working)
      && |r.logs| <= 1
    ensures r.machine.status == Working ==> 0.0 < r.machine.health
    ensures r.machine.status == Working || r.machine.status == m.status || r.machine.status == Broken
    ensures r.machine.status == Working ==> m.status == Working
    ensures m.status == Working && 0 <= cycles && 0.0 <= mult ==> r.machine.health <= m.health
    ensures m.status == Working ==>
      var logsFrom := if m.ageCycles + cycles <= 2000 then pos + 1 else pos;
      r.pos == logsFrom + LogDraws(r.machine.health, src(logsFrom))
    ensures pos <= r.pos <= pos + 3
  {
    if m.status != Working then Worn(m, [], pos)
    else
      var age := m.ageCycles + cycles;
      var d := Degradation(age, mult, src, pos);
      var aged := m.(ageCycles := age, health := m.health - d.0 * cycles as real);
      var out := GenerateLogs(aged, src, d.1);
      assert 0 <= cycles && 0.0 <= mult ==> aged.health <= m.health by {
        if 0 <= cycles && 0.0 <= mult {
          DegradationNonNegative(age, mult, src, pos);
          MulNonNegative(d.0, cycles as real);
        }
      }
      Worn(out.machine, out.logs, out.pos)
  }

  /** The worn roster, its logs and the final cursor. */
  datatype Fleet = Fleet(machines: seq<Machine>, logs: seq<Log>, pos: nat)

  /** Every machine in roster order, each worn on the cursor the previous
      one left. Afterwards no working machine has health at or below zero;
      machines that were not working are untouched and take no draw; ids and
      types stay; each machine takes at most three draws. */
  function WearFleet(ms: seq<Machine>, washes: int, dries: int, washers: nat, dryers: nat, mult: real,
                     src: Stream, pos: nat): (r: Fleet)
    ensures |r.machines| == |ms|
    ensures forall i :: 0 <= i < |ms| ==>
      && r.machines[i].id == ms[i].id && r.machines[i].kind == ms[i].kind
      && (r.machines[i].status == Working ==> 0.0 < r.machines[i].health && ms[i].status == Working)
      && (ms[i].status != Working ==> r.machines[i] == ms[i])
      && (ms[i].status == Working ==>
            r.machines[i].ageCycles == ms[i].ageCycles + Cycles(ms[i], washes, dries, washers, dryers))
    ensures pos <= r.pos <= pos + 3 * |ms|
    ensures ms == [] ==> r.pos == pos
    decreases |ms|
  {
    if ms == [] then Fleet([], [], pos)
    else
      var first := WearMachine(ms[0], Cycles(ms[0], washes, dries, washers, dryers), mult, src, pos);
      var rest := WearFleet(ms[1..], washes, dries, washers, dryers, mult, src, first.pos);
      assert forall i :: 1 <= i < |ms| ==> ms[i] == ms[1..][i - 1];
      Fleet([first.machine] + rest.machines, first.logs + rest.logs, rest.pos)
  }

  /** The cursor at which each machine's wear begins when the fleet is worn
      from `pos`. */
  ghost function FleetStarts(ms: seq<Machine>, washes: int, dries: int, washers: nat, dryers: nat, mult: real,
                             src: Stream, pos: nat): (st: seq<nat>)
    ensures |st| == |ms|
    ensures ms != [] ==> st[0] == pos
    decreases |ms|
  {
    if ms == [] then []
    else
      var first := WearMachine(ms[0], Cycles(ms[0], washes, dries, washers, dryers), mult, src, pos);
      [pos] + FleetStarts(ms[1..], washes, dries, washers, dryers, mult, src, first.pos)
  }

  /** Machine `i` of the fleet `r` is machine `i` of `ms` worn on its start
      cursor, and the next machine starts (or the fleet ends) where its
      draws stop. */
  ghost predicate WornInTurn(r: Fleet, starts: seq<nat>, ms: seq<Machine>, washes: int, dries: int,
                             washers: nat, dryers: nat, mult: real, src: Stream, i: nat)
    requires i < |ms| && |r.machines| == |ms| && |starts| == |ms|
  {
    var w := WearMachine(ms[i], Cycles(ms[i], washes, dries, washers, dryers), mult, src, starts[i]);
    && r.machines[i] == w.machine
    && (if i + 1 < |ms| then starts[i + 1] else r.pos) == w.pos
  }

  /** Prepending a machine worn at `pos` that leaves the cursor where the
      rest of the fleet starts keeps every later machine in turn. */
  lemma WornInTurnCons(r: Fleet, st: seq<nat>, rest: Fleet, restSt: seq<nat>, ms: seq<Machine>, washes: int,
                       dries: int, washers: nat, dryers: nat, mult: real, src: Stream, pos: nat, i: nat)
    requires 0 < i < |ms| && |rest.machines| == |restSt| == |ms| - 1 && |r.machines| == |ms|
    requires r.machines == [r.machines[0]] + rest.machines && st == [pos] + restSt
    requires r.pos == rest.pos
    requires WornInTurn(rest, restSt, ms[1..], washes, dries, washers, dryers, mult, src, i - 1)
    ensures WornInTurn(r, st, ms, washes, dries, washers, dryers, mult, src, i)
  {
    assert ms[i] == ms[1..][i - 1];
    assert st[i] == restSt[i - 1] && r.machines[i] == rest.machines[i - 1];
    if i + 1 < |ms| {
      assert st[i + 1] == restSt[i];
    }
  }

  /** The first machine worn at `pos` is in turn when the rest of the fleet
      starts (or, alone, ends) where its draws stop. */
  lemma WornInTurnHead(r: Fleet, st: seq<nat>, first: Worn, rest: Fleet, restSt: seq<nat>, ms: seq<Machine>,
                       washes: int, dries: int, washers: nat, dryers: nat, mult: real, src: Stream, pos: nat)
    requires 0 < |ms| && |rest.machines| == |restSt| == |ms| - 1
    requires first == WearMachine(ms[0], Cycles(ms[0], washes, dries, washers, dryers), mult, src, pos)
    requires r.machines == [first.machine] + rest.machines && st == [pos] + restSt
    requires r.pos == rest.pos
    requires 1 < |ms| ==> restSt[0] == first.pos
    requires |ms| == 1 ==> rest.pos == first.pos
    ensures WornInTurn(r, st, ms, washes, dries, washers, dryers, mult, src, 0)
  {
    if 1 < |ms| {
      assert st[1] == restSt[0];
    }
  }

  /** Machine `i` of the fleet is worn in turn. */
  lemma {:induction false} WearFleetAt(ms: seq<Machine>, washes: int, dries: int, washers: nat, dryers: nat,
                                       mult: real, src: Stream, pos: nat, i: nat)
    requires i < |ms|
    ensures WornInTurn(WearFleet(ms, washes, dries, washers, dryers, mult, src, pos),
                       FleetStarts(ms, washes, dries, washers, dryers, mult, src, pos),
                       ms, washes, dries, washers, dryers, mult, src, i)
    decreases |ms|
  {
    var r := WearFleet(ms, washes, dries, washers, dryers, mult, src, pos);
    var st := FleetStarts(ms, washes, dries, washers, dryers, mult, src, pos);
    var first := WearMachine(ms[0], Cycles(ms[0], washes, dries, washers, dryers), mult, src, pos);
    var rest := WearFleet(ms[1..], washes, dries, washers, dryers, mult, src, first.pos);
    var restSt := FleetStarts(ms[1..], washes, dries, washers, dryers, mult, src, first.pos);
    if i == 0 {
      WornInTurnHead(r, st, first, rest, restSt, ms, washes, dries, washers, dryers, mult, src, pos);
    } else {
      WearFleetAt(ms[1..], washes, dries, washers, dryers, mult, src, first.pos, i - 1);
      WornInTurnCons(r, st, rest, restSt, ms, washes, dries, washers, dryers, mult, src, pos, i);
    }
  }

  /** The fleet's wear is each machine's own wear, in roster order, on the
      cursor the previous machine left: the first starts at `pos` and the
      last leaves the fleet's final cursor. */
  lemma WearFleetInOrder(ms: seq<Machine>, washes: int, dries: int, washers: nat, dryers: nat,
                         mult: real, src: Stream, pos: nat)
    ensures var r := WearFleet(ms, washes, dries, washers, dryers, mult, src, pos);
      var st := FleetStarts(ms, washes, dries, washers, dryers, mult, src, pos);
      forall i: nat :: i < |ms| ==> WornInTurn(r, st, ms, washes, dries, washers, dryers, mult, src, i)
  {
    forall i: nat | i < |ms|
      ensures WornInTurn(WearFleet(ms, washes, dries, washers, dryers, mult, src, pos),
                         FleetStarts(ms, washes, dries, washers, dryers, mult, src, pos),
                         ms, washes, dries, washers, dryers, mult, src, i)
    {
      WearFleetAt(ms, washes, dries, washers, dryers, mult, src, pos, i);
    }
  }
}

=== FILE: orders.dfy ===
/** Inventory purchases and their delayed delivery. */
module Orders {
  import opened Basics
  import opened Config
  import opened Models

  datatype Order = Order(arrival: int, item: string, qty: int)

  /** Price of one unit; items other than soap and parts cost nothing. */
  function UnitCost(item: string): real
  {
    if item == "soap" then CostSoapUnit
    else if item == "machine_parts" then CostPart
    else 0.0
  }

  /** Soap takes the scenario's lead time; everything else arrives next day. */
  function LeadTime(item: string, soapLeadTime: int): int
  {
    if item == "soap" then soapLeadTime else 1
  }

  /** What a purchase list costs in total. */
  function PurchaseCost(buys: seq<(string, int)>): real
  {
    if buys == [] then 0.0 else buys[0].1 as real * UnitCost(buys[0].0) + PurchaseCost(buys[1..])
  }

  datatype Purchase = Purchase(state: State, pending: seq<Order>, logs: seq<Log>)

  /** Purchases: every purchased item is paid for at once, overdraft allowed,
      and one order per item is queued in purchase order. */
  function Buy(s: State, pending: seq<Order>, buys: seq<(string, int)>, soapLeadTime: int): (r: Purchase)
    ensures r.state == s.(cash := s.cash - PurchaseCost(buys))
    ensures |r.pending| == |pending| + |buys|
    ensures r.pending[..|pending|] == pending
    ensures forall i :: 0 <= i < |buys| ==>
      r.pending[|pending| + i] == Order(s.day + LeadTime(buys[i].0, soapLeadTime), buys[i].0, buys[i].1)
    ensures |r.logs| == |buys|
    decreases |buys|
  {
    if buys == [] then Purchase(s, pending, [])
    else
      var item := buys[0].0;
      var qty := buys[0].1;
      var cost := qty as real * UnitCost(item);
      var arrival := s.day + LeadTime(item, soapLeadTime);
      var rest := Buy(s.(cash := s.cash - cost), pending + [Order(arrival, item, qty)], buys[1..], soapLeadTime);
      assert rest.pending[..|pending| + 1][..|pending|] == rest.pending[..|pending|];
      assert forall i :: 1 <= i < |buys| ==> buys[1..][i - 1] == buys[i];
      Purchase(rest.state, rest.pending, [Ordered(item, qty, cost, arrival)] + rest.logs)
  }

  /** A purchase keeps every queued order and adds none that is due the
      same day, except soap under a lead time below one day. */
  lemma BuyKeepsQueue(s: State, pending: seq<Order>, buys: seq<(string, int)>, soapLeadTime: int)
    ensures var r := Buy(s, pending, buys, soapLeadTime);
      && (forall o :: o in pending ==> o in r.pending)
      && (forall o :: o in r.pending && o.arrival <= s.day ==> o in pending || o.item == "soap")
  {
    var r := Buy(s, pending, buys, soapLeadTime);
    forall o | o in r.pending && o.arrival <= s.day
      ensures o in pending || o.item == "soap"
    {
      var k :| 0 <= k < |r.pending| && r.pending[k] == o;
      if k < |pending| {
        assert r.pending[..|pending|][k] == o;
      } else {
        var i := k - |pending|;
        assert o == Order(s.day + LeadTime(buys[i].0, soapLeadTime), buys[i].0, buys[i].1);
      }
    }
    forall o | o in pending ensures o in r.pending {
      var k :| 0 <= k < |pending| && pending[k] == o;
      assert r.pending[..|pending|][k] == o;
    }
  }

  /** The orders due by `day`, in queue order. */
  function Arrived(pending: seq<Order>, day: int): (r: seq<Order>)
    ensures forall o :: o in r <==> o in pending && o.arrival <= day
  {
    if pending == [] then []
    else (if pending[0].arrival <= day then [pending[0]] else []) + Arrived(pending[1..], day)
  }

  /** The orders still outstanding after `day`, in queue order. */
  function Kept(pending: seq<Order>, day: int): (r: seq<Order>)
    ensures forall o :: o in r <==> o in pending && day < o.arrival
  {
    if pending == [] then []
    else (if day < pending[0].arrival then [pending[0]] else []) + Kept(pending[1..], day)
  }

  /** Delivery splits the queue: every order is delivered or kept, exactly once. */
  lemma {:induction false} DeliveryPartitions(pending: seq<Order>, day: int)
    ensures multiset(Arrived(pending, day)) + multiset(Kept(pending, day)) == multiset(pending)
  {
    if pending != [] {
      DeliveryPartitions(pending[1..], day);
      assert pending == [pending[0]] + pending[1..];
    }
  }

  /** Total quantity of `item` in a list of orders. */
  function QtyOf(orders: seq<Order>, item: string): int
  {
    if orders == [] then 0
    else (if orders[0].item == item then orders[0].qty else 0) + QtyOf(orders[1..], item)
  }

  datatype Stocked = Stocked(inventory: map<string, int>, logs: seq<Log>)

  /** Adds each order's quantity to its item's count, in order; an item
      with no count yet raises (the source's KeyError) and names that item. */
  function Stock(inv: map<string, int>, orders: seq<Order>): (r: Result<Stocked, string>)
    ensures r.Success? <==> forall i :: 0 <= i < |orders| ==> orders[i].item in inv
    ensures r.Success? ==>
      && r.value.inventory.Keys == inv.Keys
      && (forall k :: k in inv ==> r.value.inventory[k] == inv[k] + QtyOf(orders, k))
      && |r.value.logs| == |orders|
    ensures r.Failure? ==> r.error !in inv && exists i :: 0 <= i < |orders| && orders[i].item == r.error
    decreases |orders|
  {
    if orders == [] then Success(Stocked(inv, []))
    else
      var o := orders[0];
      if o.item !in inv then Failure(o.item)
      else
        var rest := Stock(inv[o.item := inv[o.item] + o.qty], orders[1..]);
        assert forall i :: 1 <= i < |orders| ==> orders[1..][i - 1] == orders[i];
        match rest
        case Failure(e) =>
          assert exists i :: 0 <= i < |orders[1..]| && orders[1..][i].item == e;
          Failure(e)
        case Success(st) => Success(Stocked(st.inventory, [Delivered(o.item, o.qty)] + st.logs))
  }

  datatype Delivery = Delivery(inventory: map<string, int>, pending: seq<Order>, logs: seq<Log>)

  /** Receipt of inventory: the orders due by `day` are added to the
      inventory and leave the queue; the rest stay, in order. It raises when
      a due order names an item the inventory does not count. */
  function Deliver(inv: map<string, int>, pending: seq<Order>, day: int): (r: Result<Delivery, string>)
    ensures r.Success? <==> forall o :: o in pending && o.arrival <= day ==> o.item in inv
    ensures r.Success? ==>
      && r.value.pending == Kept(pending, day)
      && r.value.inventory.Keys == inv.Keys
      && forall k :: k in inv ==> r.value.inventory[k] == inv[k] + QtyOf(Arrived(pending, day), k)
    ensures r.Failure? ==> r.error !in inv && exists o :: o in pending && o.arrival <= day && o.item == r.error
  {
    var arrived := Arrived(pending, day);
    match Stock(inv, arrived)
    case Failure(e) => Failure(e)
    case Success(st) => Success(Delivery(st.inventory, Kept(pending, day), st.logs))
  }
}

=== FILE: random.dfy ===
/** The seeded generator, reduced to what the simulator observes of it: a
    fixed infinite sequence of uniform draws in [0, 1), read through a
    cursor. Every consumer takes the cursor and returns the advanced one, so
    the number of draws each step consumes is part of its contract. */
module Random {

  /** The run's draws, indexed by position. */
  type Stream = nat -> real

  /** An integer drawn uniformly from [lo, hi) out of the uniform draw `u`
      (numpy's `randint(lo, hi)` and `choice` over `hi` items). */
  function RandInt(u: real, lo: int, hi: int): (r: int)
    requires lo < hi
    ensures lo <= r < hi
    ensures 0.0 <= u < 1.0 ==> r == lo + (u * (hi - lo) as real).Floor
  {
    var n := (hi - lo) as real;
    var k := (u * n).Floor;
    if 0.0 <= u < 1.0 then
      assert 0.0 <= u * n < n by { assert u * n <= 1.0 * n; assert u * n != n; }
      lo + k
    else if k < 0 then lo
    else if hi - lo <= k then hi - 1
    else lo + k
  }
}

=== FILE: scorer.dfy ===
/** Net business value: cash plus what the machines are worth minus debt.
    A machine is worth its purchase price scaled by its health, but never
    less than a tenth of it (scrap value). Rounding to cents is not modelled. */
module Scorer {
  import opened Basics
  import opened Config
  import opened Models

  /** The floor every machine is worth, even at zero or negative health. */
  function ScrapValue(kind: MachineType): real
  {
    BaseCost(kind) / 10.0
  }

  function MachineValue(m: Machine): (v: real)
    ensures ScrapValue(m.kind) <= v
    ensures BaseCost(m.kind) * m.health <= v
    ensures 0.1 <= m.health ==> v == BaseCost(m.kind) * m.health
  {
    BaseCost(m.kind) * MaxReal(0.1, m.health)
  }

  function AssetValue(ms: seq<Machine>): real
  {
    if ms == [] then 0.0 else MachineValue(ms[0]) + AssetValue(ms[1..])
  }

  /** The sum of the machines' scrap values. */
  function TotalScrap(ms: seq<Machine>): real
  {
    if ms == [] then 0.0 else ScrapValue(ms[0].kind) + TotalScrap(ms[1..])
  }

  /** NBV is bounded below by cash minus debt plus the roster's scrap value. */
  function NetBusinessValue(s: State): (v: real)
    ensures s.cash - s.debt + TotalScrap(s.machines) <= v
  {
    ScrapFloor(s.machines);
    s.cash + AssetValue(s.machines) - s.debt
  }

  /** Every machine contributes at least its scrap value. */
  lemma {:induction false} ScrapFloor(ms: seq<Machine>)
    ensures TotalScrap(ms) <= AssetValue(ms)
  {
    if ms != [] {
      ScrapFloor(ms[1..]);
    }
  }

  /** Same roster, each machine at least as healthy. */
  ghost predicate NoWorseFleet(ms1: seq<Machine>, ms2: seq<Machine>)
  {
    && |ms1| == |ms2|
    && forall i :: 0 <= i < |ms1| ==> ms1[i].kind == ms2[i].kind && ms1[i].health <= ms2[i].health
  }

  lemma {:induction false} AssetValueMonotone(ms1: seq<Machine>, ms2: seq<Machine>)
    requires NoWorseFleet(ms1, ms2)
    ensures AssetValue(ms1) <= AssetValue(ms2)
  {
    if ms1 != [] {
      assert NoWorseFleet(ms1[1..], ms2[1..]) by {
        forall i | 0 <= i < |ms1[1..]|
          ensures ms1[1..][i].kind == ms2[1..][i].kind && ms1[1..][i].health <= ms2[1..][i].health
        {
          assert ms1[1..][i] == ms1[i + 1] && ms2[1..][i] == ms2[i + 1];
        }
      }
      AssetValueMonotone(ms1[1..], ms2[1..]);
      var k := ms1[0].kind;
      assert MaxReal(0.1, ms1[0].health) <= MaxReal(0.1, ms2[0].health);
      assert 0.0 < BaseCost(k);
      assert MachineValue(ms1[0]) <= MachineValue(ms2[0]);
    }
  }

  /** NBV is non-decreasing in cash and in every machine's health, and
      non-increasing in debt. */
  lemma NbvMonotone(s1: State, s2: State)
    requires s1.cash <= s2.cash && s2.debt <= s1.debt
    requires NoWorseFleet(s1.machines, s2.machines)
    ensures NetBusinessValue(s1) <= NetBusinessValue(s2)
  {
    AssetValueMonotone(s1.machines, s2.machines);
  }

  /** Cash 1000, debt 200, a washer at half health and a dead dryer:
      1000 + 800 * 0.5 + 600 * 0.1 - 200 = 1260. */
  lemma NbvExample(s: State)
    requires s.cash == 1000.0 && s.debt == 200.0
    requires |s.machines| == 2
    requires s.machines[0].kind == Washer && s.machines[0].health == 0.5
    requires s.machines[1].kind == Dryer && s.machines[1].health == 0.0
    ensures NetBusinessValue(s) == 1260.0
  {
    var ms := s.machines;
    assert ms[1..][1..] == [];
    assert AssetValue(ms[1..]) == MachineValue(ms[1]) + AssetValue(ms[1..][1..]);
    assert MachineValue(ms[1]) == 60.0;
    assert MachineValue(ms[0]) == 400.0;
  }
}
